=== FILE: README.md ===
# Voice-bridge core, modelled in Dafny

This project models the core of a phone voice agent that bridges a Twilio
media stream and the OpenAI Realtime API. It covers:

- the per-call session state machine in `twilio_handler.py`:
  - forwarding caller audio;
  - relaying assistant audio with `mark` bookkeeping;
  - barge-in truncation;
  - the conversation log;
  - function calling;
- the tool registry `FunctionCallManager`:
  - `call_function`, which wraps every outcome in a one-key envelope;
  - `tool_defs` and `get_params`, which give the JSON-schema view of each tool;
- four of the eight registered tools:
  - `verification_tool`: input cleaning, a two-key lookup and the security question;
  - `get_case`, `update_case` and `create_case`: the Salesforce case tools.

Everything is pure functions over immutable datatypes. Each modelled step
returns the new state together with the messages it sends, in order.

The following become parameters:

- the Salesforce client, as a record of functions whose calls return or raise;
- the JSON parser;
- the clock reading;
- Python's `str` on floats;
- pydantic's `model_dump_json` on an `EmailContentModel`;
- whether the AI socket is open.

The modules follow the program:

| file | what it models |
|---|---|
| `common.dfy` | Python truthiness, `str(int)` |
| `dict.dfy` | insertion-ordered `dict` |
| `json.dfy` | parsed JSON values |
| `registry.dfy` | `function_call_manager.py` |
| `signatures.dfy` | the tools' declared signatures |
| `verification.dfy` | `tools/verification_tool.py` |
| `case_lookup.dfy` | the query and triage the CRM tools share |
| `get_case.dfy` | `tools/get_case.py` |
| `update_case.dfy` | `tools/update_case.py` |
| `create_case.dfy` | `tools/create_case.py` |
| `session.dfy` | the handler's local state |
| `inbound.dfy` | `receive_from_twilio` |
| `ai_events.dfy` | parsed AI server events |
| `audio_out.dfy` | audio deltas |
| `barge_in.dfy` | speech-started handling |
| `conversation_log.dfy` | the conversation log |
| `function_calls.dfy` | function calling in the handler |
| `orchestrator.dfy` | the whole call as one event sequence |

Some things the model shows about the code as written:

- **`create_case` never runs from the voice session.** The handler adds
  `conversation_history` to the arguments of every `create_case` call.
  `create_case` declares no such parameter, so binding the arguments raises
  `TypeError`. The tool is answered with a "raised" error and its body
  never runs (`FunctionCalls.CreateCaseCallFails`). This is for the tool
  as a plain Python function; registered as the decorated object (see
  below) it does not run either, being not callable.
- **`update_case` never updates a case when the session passes
  `email_content`.** Arguments reaching a tool through `call_function` come
  from `json.loads`, so `email_content` is a `dict` (or another JSON value),
  never an `EmailContentModel`. Once the case is found, the `dict` has no
  `model_dump_json`, and the `AttributeError` is not the `TypeError` the
  inner `except` catches. The outer `except` answers
  `"An error occurred: 'dict' object has no attribute 'model_dump_json'"`,
  and `sf.Case.update` is never called
  (`UpdateCaseTool.SessionEmailNeverUpdates`).
- **Two tools are decorated.** `verification_tool` and `create_case` carry
  the agents library's `@function_tool`, so the registry maps their names to
  the library's tool objects, not to the functions. The model covers both
  readings of such an entry. As a plain function, binding and the body run
  as described here. As an object without `__call__` (a `NotCallable`
  entry), `call_function` answers "Function '<name>' is not callable." and
  `tool_defs` produces no list at all (`Registry.Invoke`,
  `Registry.ToolDefs`). `Verification.Verify` models the undecorated
  function's body.
- **The truncation offset can be negative.** The offset sent on barge-in is
  not clamped, and becomes negative if Twilio's media timestamps ever go
  backwards (`BargeIn.NegativeTruncationPossible`). While they never
  decrease, it is never negative (`Orchestrator.TruncationNeverNegative`).

## Model

| member | source | states |
|---|---|---|
| Common.IntTextInjective | tools/update_case.py:116 | the decimal text of an int names exactly one int, so the status message determines the status code |
| Dict.Get | function_call_manager.py:32-34 | the lookup finds nothing exactly when the name is not a key, and otherwise gives the value stored with it; a stored JSON `null` is a value here, found as `Some(Null)` |
| Dict.Put | tools/update_case.py:87-100 | assignment sets `k`, leaves every other key's value alone, keeps the key order for an existing key and appends a new key |
| Dict.PutAllFresh | tools/create_case.py:88-93 | a run of `if x is not None: d[k] = x` with distinct fresh keys appends exactly the present values, in order |
| Dict.GetPresent | tools/update_case.py:87-100 | after such a run each slot's key reads back its own optional value |
| Dict.PresentEmpty | tools/update_case.py:105-106 | the run adds nothing exactly when every value is `None` |
| Registry.Bind | function_call_manager.py:43-45 | `func(**args)` refuses a non-mapping, any keyword that names no parameter, and missing required parameters; otherwise every parameter is bound |
| Registry.BindValuesAgree | function_call_manager.py:43-45 | a bound parameter holds the caller's argument when given and its declared default otherwise |
| Registry.Invoke | function_call_manager.py:39-50 | a non-callable entry gives the not-callable error; success exactly when the arguments bind and the body returns, with the body's value; every other failure starts with "Function '<name>' raised: " |
| Registry.NonObjectArguments | function_call_manager.py:43-50 | arguments that are not an object fail before the body runs, with the `**` error naming the tool by module and name and the type passed |
| Registry.CallFunction | function_call_manager.py:31-50 | an unknown name is reported before the arguments are read; an empty text stands for `{}`; unparseable text gives "Invalid arguments JSON: " and the parser's message |
| Registry.EnvelopeHasOneKey | function_call_manager.py:31-50 | every outcome is an object with exactly one key, "result" for success and "error" for failure |
| Registry.UnknownNameIgnoresArguments | function_call_manager.py:32-33 | an unknown name gives the same not-found error whatever arguments and parser |
| Registry.MalformedArgumentsRunNoTool | function_call_manager.py:35-38 | unparseable arguments give the same error whatever the registered tools do |
| Registry.CallFunctionOnSerialised | function_call_manager.py:36 | when the parser reads the text back as the value serialised, the call equals the call on that value |
| Registry.CallFunctionSucceedsIff | function_call_manager.py:31-50 | success exactly when the name is registered and callable, the arguments parse and bind, and the body returns |
| Registry.SchemaType | function_call_manager.py:80-89 | only the exact types `int`, `float` and `bool` map to "integer", "number" and "boolean"; everything else is "string" |
| Registry.VisibleNamesMembership | function_call_manager.py:77-79 | the reported names are exactly the parameter names other than `self` |
| Registry.GetParamsFromSpec | function_call_manager.py:76-96 | each step adds the schema of each non-`self` parameter after the keys already there and changes no earlier entry |
| Registry.GetParamsSpec | function_call_manager.py:66-96 | `get_params` lists exactly the non-`self` parameters in signature order, each with its schema type, an empty description and a default exactly when declared |
| Registry.ToolDefs | function_call_manager.py:52-64 | one definition per registered name in map order, of type "function" with the docstring or "" and the object schema of the parameters; no list at all when some entry is not callable |
| Signatures.CreateCaseRefusesHistory | tools/create_case.py:14-23 | arguments holding `conversation_history` never bind to `create_case`'s signature: the binding fails with an unexpected keyword |
| Signatures.HangupCallBindsCallSid | tools/hangup_call.py:11 | `hangup_call` binds a lone `call_sid` argument |
| Signatures.DisputedAmountIsAdvertisedAsString | function_call_manager.py:80-95 | `disputed_amount`, declared as float or `None`, is advertised as a "string" with default `null` |
| Verification.RemoveAndLower | tools/verification_tool.py:43-44 | the deletions and lower-casing leave no ` `, `-`, `_` or upper-case letter, and leave a string already free of them as it is |
| Verification.RemoveAndLowerChar | tools/verification_tool.py:43-44 | a single character is deleted when it is ` `, `-` or `_` and otherwise kept, lower-cased |
| Verification.RemoveAndLowerConcat | tools/verification_tool.py:43-44 | a concatenation cleans to the concatenation of the cleaned parts, so the kept characters survive lower-cased and in order |
| Verification.SkipSpaces | tools/verification_tool.py:44 | the first non-whitespace position at or after `i`, with only whitespace skipped |
| Verification.TrimEnd | tools/verification_tool.py:44 | the end once trailing whitespace is dropped, with only whitespace dropped |
| Verification.Strip | tools/verification_tool.py:44 | the result is a slice of the input with only whitespace cut before and after it, and it neither starts nor ends with whitespace; an input without edge whitespace is kept whole |
| Verification.Clean | tools/verification_tool.py:40-44 | the cleaned string never grows and is always in cleaned form |
| Verification.RemoveAndLowerNoSpace | tools/verification_tool.py:43-44 | when the input's only whitespace is the space, deleting and lower-casing leaves no whitespace |
| Verification.CleanIsCharwise | tools/verification_tool.py:40-44 | for input whose only whitespace is the space, cleaning is exactly the character-wise deletion and lower-casing |
| Verification.CleanIdempotent | tools/verification_tool.py:40-44 | cleaning twice is cleaning once |
| Verification.MatchesCleanedRecord | tools/verification_tool.py:91-93 | for a record with cleaned keys, matching is equality of the keys |
| Verification.FindCustomer | tools/verification_tool.py:89-95 | no result exactly when no record matches both cleaned keys; otherwise the first record that does |
| Verification.Verify | tools/verification_tool.py:19-153 | a falsy phone number or customer id is invalid input; "customer not found" exactly when no record matches; a missing question is reported only for a listed id without one; a question only when no answer is given; "verified" only for a matching record whose cleaned answer equals the cleaned stored answer |
| Verification.AnswerDecides | tools/verification_tool.py:118-153 | for a found customer with a question: no answer gives the question; an answer verifies exactly when the cleaned answers agree and fails otherwise |
| Verification.NeverMissingQuestion | tools/verification_tool.py:106-116 | when every listed customer has a question, the "no security question" status never occurs |
| Verification.SourceNeverMissingQuestion | tools/verification_tool.py:106-116 | with the hard-coded tables the "no security question" status is never returned |
| Verification.EmptyAnswerFails | tools/verification_tool.py:131-153 | an empty answer is checked, not treated as missing, and fails unless the stored answer cleans to the empty string |
| Verification.SourceKeysCleaned | tools/verification_tool.py:62-87 | the hard-coded phone numbers and ids are already in cleaned form |
| Verification.SourceEveryoneHasQuestion | tools/verification_tool.py:54-87 | every hard-coded customer has a hard-coded question |
| Verification.FindsRecord | tools/verification_tool.py:89-95 | with cleaned keys, the lookup finds the first record whose keys equal the cleaned inputs |
| Verification.Customer1002Found | tools/verification_tool.py:54-95 | any inputs that clean to "123" and "1002" find customer 1002, whose stored answer is "white" |
| Verification.QuestionForCustomer1002 | tools/verification_tool.py:118-129 | such inputs with no answer get "What is your favorite color?" |
| Verification.SpacedPhoneCleans | tools/verification_tool.py:43 | "1 2 3" cleans to "123" |
| Verification.HyphenatedIdCleans | tools/verification_tool.py:43 | "10-02" cleans to "1002" |
| Verification.NoisyAnswerCleans | tools/verification_tool.py:43-44 | "WHITE " cleans to "white" |
| Verification.AnswerVerifiesCustomer1002 | tools/verification_tool.py:131-145 | such inputs with any answer cleaning to "white" verify customer 1002 |
| Verification.NoisyInputsVerify | tools/verification_tool.py:43-153 | phone "1 2 3", customer id "10-02" and answer "WHITE " verify customer 1002 |
| CaseLookup.CaseQuery | tools/get_case.py:45 | the query starts with the fixed `SELECT` prefix and ends with the quote after the case number |
| CaseLookup.QueryRoundTrip | tools/update_case.py:76 | the case number can be read back out of its query |
| CaseLookup.CaseQueryInjective | tools/get_case.py:45 | different case numbers give different queries |
| CaseLookup.TriageOf | tools/get_case.py:48-53 | "not found" exactly when `totalSize` is 0; "multiple" exactly when above 1; otherwise the first record's id, or an index error when `records` is empty |
| CaseLookup.LookupMessagesDistinct | tools/update_case.py:79-82 | the not-found and multiple errors differ and each determines its case number |
| CaseLookup.ReplyJson | tools/get_case.py:49-58 | a reply is a dict; an error reply is the one-key dict `{"error": message}` |
| GetCaseTool.GetCase | tools/get_case.py:35-58 | a failed login or query, an empty `records` list (`IndexError`) and a failing fetch are each reported with their message; a record is returned exactly when the query finds one case and fetching it succeeds, and it is the fetched record |
| GetCaseTool.LookupErrors | tools/get_case.py:48-51 | a `totalSize` of 0 or above 1 gives the not-found or multiple error naming the case number |
| UpdateCaseTool.UpdateDataFields | tools/update_case.py:87-100 | each given argument fills exactly its own field, `None` fills nothing, no other key appears, and (with a dumpable `email_content`) the dict is empty exactly when no optional argument is given |
| UpdateCaseTool.DumpEmail | tools/update_case.py:98-103 | a model dumps to its JSON text; a plain JSON value raises the `AttributeError` "'<type>' object has no attribute 'model_dump_json'" |
| UpdateCaseTool.UpdateCase | tools/update_case.py:68-120 | a failed connection, query or update, the empty-records index error and an undumpable `email_content` are each reported as "An error occurred: " and the exception's text; a record is returned exactly when the case is found uniquely, `email_content` dumps, some field is given, the update answers 204 and the fetch succeeds, and it is the fetched record |
| UpdateCaseTool.SessionEmailNeverUpdates | tools/update_case.py:98-120 | an `email_content` that arrives as parsed JSON never yields a record; once the case is found the answer is the `AttributeError` text, whatever `sf.Case.update` would do |
| UpdateCaseTool.LookupBeforeFields | tools/update_case.py:76-84 | a missing or ambiguous case gives the same error whatever the optional arguments, the same error `get_case` gives |
| UpdateCaseTool.NoFieldsError | tools/update_case.py:105-106 | a unique case with no optional argument gives "No fields provided to update." |
| UpdateCaseTool.StatusDecides | tools/update_case.py:109-116 | any status other than 204 is reported with its code; 204 returns the fetched record or the fetch's error |
| UpdateCaseTool.StatusMessageInjective | tools/update_case.py:116 | different status codes give different messages |
| CreateCaseTool.CommentsLayout | tools/create_case.py:59-66 | the internal comment starts with the header naming the time and ends with the subject line and the body |
| CreateCaseTool.DisputedAmount | tools/create_case.py:83 | the amount is `null` exactly when it is missing or zero, and otherwise is `str` of the amount |
| CreateCaseTool.CaseDataFixedFields | tools/create_case.py:76-86 | the record starts with the nine fixed fields in the order of the dict literal |
| CreateCaseTool.OptionalKeysFresh | tools/create_case.py:76-93 | the optional keys are distinct and none of them is a fixed key, so the optional fields are appended after the fixed ones |
| CreateCaseTool.CaseDataOptionalFields | tools/create_case.py:88-93 | each optional field is present exactly when its argument is not `None`, and then holds that argument |
| CreateCaseTool.CreateCase | tools/create_case.py:68-98 | failures of the connection, the create and the fetch propagate; a record is returned exactly when all succeed, and it is the record fetched under the new id |
| Session.InitialValid | twilio_handler.py:225-231 | the state at the start of a call satisfies the session invariant |
| Session.HistoryJson | twilio_handler.py:341-342 | the injected history is a JSON list with one entry per turn, entry i being `{"user": text}` or `{"agent": text}` for turn i |
| Orchestrator.StartForgetsResponse | twilio_handler.py:246-253 | after a start frame, speech truncates and clears nothing, while the previous stream's queued marks and the log are kept |
| InboundRelay.OnTwilio | twilio_handler.py:236-256 | only media frames send anything, and no caller frame touches the log |
| InboundRelay.FrameConditions | twilio_handler.py:236-256 | a media frame sends exactly one message with the AI socket open and none with it closed, and changes nothing but the timestamp; a mark frame changes nothing but the mark queue, and nothing at all on an empty queue; any other frame is ignored |
| InboundRelay.StartFrameEffect | twilio_handler.py:246-253 | a start frame binds both ids, clears the response start and the assistant item, resets the timestamp to 0, keeps the mark queue and the log, and sends nothing |
| InboundRelay.OnTwilioValid | twilio_handler.py:236-256 | every caller frame keeps the session invariant |
| InboundRelay.MarksLeaveInOrder | twilio_handler.py:254-256 | marks are acknowledged oldest first, one per frame; a non-empty queue shrinks by one, and an empty one is left as it is |
| AudioOut.OnAudioDelta | twilio_handler.py:274-297 | without a delta nothing happens and nothing changes; otherwise the first message is the audio to the caller, tagged with the stream id |
| AudioOut.AudioDeltaEffect | twilio_handler.py:274-297 | exactly the audio to the caller is sent, then a `responsePart` mark on that stream only when the stream id is a non-empty string, and the queue grows by that mark alone; the start is set only when none was recorded; the item changes only for a non-empty `item_id`; nothing else changes |
| AudioOut.AudioDeltaValid | twilio_handler.py:274-297 | an audio delta keeps the session invariant |
| BargeIn.QuietWhenNothingPlays | twilio_handler.py:373-382 | speech does nothing exactly when there is no assistant item, no queued mark or no recorded start |
| BargeIn.SpeechStartedIdempotent | twilio_handler.py:373-423 | a second `speech_started` right after a first does nothing |
| BargeIn.SpeechStartedValid | twilio_handler.py:373-423 | speech keeps the session invariant |
| BargeIn.TruncationExample | twilio_handler.py:398-417 | media at 5000 ms and a start at 2000 ms truncate item "X" at 3000 ms |
| BargeIn.NegativeTruncationPossible | twilio_handler.py:398-415 | a start ahead of the latest timestamp gives a negative `audio_end_ms` |
| ConversationLog.SpokenParts | twilio_handler.py:302-307 | every turn taken from a message is an agent turn with a non-empty text, at most one per content part |
| ConversationLog.LogResponseAppends | twilio_handler.py:299-308 | a finished response appends exactly the spoken transcripts of its messages, in output order, after the existing log |
| ConversationLog.OnlySpokenAudioIsLogged | twilio_handler.py:301-307 | text parts, empty transcripts and non-message items add nothing |
| FunctionCalls.Inject | twilio_handler.py:340-345 | `create_case` gets `conversation_history` and `hangup_call` gets `call_sid`, every other key is kept, and a non-object raises; other names keep their arguments |
| FunctionCalls.MissingArgumentsMeanEmptyObject | twilio_handler.py:332-338 | a call with a missing or empty argument text is `call_function` on the empty text, which stands for `{}` |
| FunctionCalls.NamelessCallNotFound | twilio_handler.py:331-351 | an item without a name is answered with "Function 'None' not found." |
| FunctionCalls.CallItem | twilio_handler.py:330-368 | a call is either answered with its call id or raises and ends the relay with nothing sent; the session is otherwise unchanged |
| FunctionCalls.CallsAnsweredInOrder | twilio_handler.py:325-371 | the answers carry a prefix of the requested call ids, in order, each followed by `response.create`; the relay survives exactly when all are answered; nothing else in the session changes |
| FunctionCalls.MalformedArgumentsEndRelay | twilio_handler.py:338 | unparseable arguments end the relay and send nothing for the call |
| FunctionCalls.CreateCaseCallFails | twilio_handler.py:341-351 | a `create_case` call through the session is always answered with a "raised" error |
| FunctionCalls.HangupInjectsCallSid | twilio_handler.py:344-351 | a `hangup_call` with object arguments is dispatched with `call_sid` overwritten by the call's own sid and the other arguments kept; non-object arguments end the relay |
| FunctionCalls.HangupUsesCallSid | twilio_handler.py:344-351 | a `hangup_call` with no arguments, or with only a `call_sid` the AI chose, runs the tool with the call's own sid |
| FunctionCalls.OtherCallsPassArguments | twilio_handler.py:347-351 | any other name receives its parsed arguments unchanged |
| Orchestrator.RunValid | twilio_handler.py:233-433 | every state a call reaches satisfies the session invariant |
| Orchestrator.OnEventLog | twilio_handler.py:392-393 | a live relay appends what the event says to the log; once the relay has ended the log stays as it is and the relay never restarts |
| Orchestrator.DeadRelayIgnoresAi | twilio_handler.py:382-393 | once the relay has ended, AI events change nothing and send nothing |
| Orchestrator.ResponseLoggedBeforeCalls | twilio_handler.py:299-330 | within one finished response the agent transcripts are logged before its function calls run, so the calls see the extended log |
| Orchestrator.HistoryOnlyGrows | twilio_handler.py:212 | the log only grows; nothing logged is changed or removed |
| Orchestrator.HistoryIsWhatWasSaid | twilio_handler.py:299-322 | while the relay survives, the log is exactly the agent's spoken transcripts and the caller's final transcripts, in arrival order |
| Orchestrator.TimestampIsLastHeard | twilio_handler.py:239-253 | after any run, the latest media timestamp is the one the caller's frames set: the last media frame read with the AI socket open, reset to 0 by a start frame; AI events and frames dropped while the socket was closed never move it |
| Orchestrator.CallerAudioForwarded | twilio_handler.py:239-245 | the audio the AI engine receives is exactly the payloads of the media frames that arrived while its socket was open, in order |
| Orchestrator.CallsOnlyAnswer | twilio_handler.py:352-368 | the function-call loop sends only results and `response.create` requests |
| Orchestrator.TruncationNeverNegative | twilio_handler.py:398-415 | while media timestamps never decrease, every truncation offset is non-negative |

## Left out

- Base64: the delta is decoded and re-encoded unchanged. That round trip is
  treated as the identity, and the `binascii.Error` an invalid payload would
  raise is not modelled.
- A `null` audio delta: it makes `b64decode` raise in the source. Here it is
  treated like a missing delta.
- Socket I/O, JSON text, `asyncio` interleaving and close or error frames:
  - frames and AI events arrive already parsed;
  - each event is handled atomically;
  - the ends of the two loops on a disconnect or a socket error are not modelled.
- The exceptions a malformed event would raise:
  - `int()` on a non-numeric timestamp (timestamps arrive as integers);
  - a missing `response` or `output` key;
  - in the transcript scan of a `response.done`: a `null` output item, or an
    item without a `type` or `content` key, or a content part without a `type`
    key (`twilio_handler.py:300-303` indexes these unguarded, so the relay
    would end before the function-call loop).
- Logging, `print_conversation_history`, `SHOW_TIMING_MATH` and every
  `print`: these are output only.
- Floating-point arithmetic: a JSON number with a fraction or an exponent
  is a `Float` holding its exact decimal value as a real. Binary rounding
  and the `NaN` and `Infinity` literals `json.loads` also accepts are not
  modelled.
- `json.dumps` of a tool result that is not serialisable: results are JSON
  values here.
- The `json.dumps(args)` / `json.loads` round trip between the handler and
  `call_function`: it is taken as the identity
  (`Registry.CallFunctionOnSerialised` states the connection).
- `@function_tool`: the agents library is not part of this model. A
  decorated tool is either the plain function or a `NotCallable` entry, as
  described above; which one the library produces is not decided here.
- Typed tool arguments: tool models take typed arguments, and the registry's
  tool bodies are abstract `Tool.body` functions. The conversion of the
  bound JSON values into each tool's typed arguments is not modelled, except
  for `update_case`'s `email_content` (`UpdateCaseTool.SessionEmail`).
- Other tools:
  - `classify_email`, `analyze_sentiment_email`, `generate_case_summary`
    and `hangup_call` are not part of this model beyond their signatures;
  - their bodies are arbitrary `Tool.body` functions.
- Credentials and login: the environment lookup, the Nango credential request
  and the `Salesforce(...)` construction are the `connect` outcome.
- SOQL quoting: the case number is spliced into the query verbatim, as in
  the source. How Salesforce parses a number containing `'` is not modelled.
- Missing keys in the CRM's replies:
  - a query record without `"Id"`;
  - a create response without `"id"`.

  Records are `QueryResult` and `Remote<string>` values.
- `UpdateCaseTool.UpdateCase`: the `TypeError` branch around
  `model_dump_json` is not reachable here, because dumping a model is a
  total function. A plain value raises `AttributeError` instead, which is
  modelled.
- The attachment loop in `create_case`: its list is always empty, so it never runs.
- `datetime.now()` and `str(float)`: these become the `timestamp` and
  `floatText` parameters.
- Unicode: lower-casing and `strip()` in `clean_string` are modelled for
  ASCII only.
- `clean_string`'s `str()` of non-strings: only strings reach it here.
- `initialize_session`, `app.py` routes and `twilio_hangup_helper.py`: these
  are not part of this model.

=== FILE: ai_events.dfy ===
/** The AI engine's server events that `send_to_twilio` reacts to
    (`twilio_handler.py`), already parsed. A field the event may lack, or
    that may be `null`, is an `Option`. */
module AiEvents {
  import opened Common

  /** One entry of a message item's `content`: its `type` and its
      `transcript` (`None` when missing or `null`). */
  datatype ContentPart = ContentPart(kind: string, transcript: Option<string>)

  /** One entry of `response.output`. */
  datatype OutputItem =
    | MessageItem(content: seq<ContentPart>)
    | FunctionCallItem(name: Option<string>, arguments: Option<string>, callId: Option<string>)
    | OtherItem

  datatype AiEvent =
    | AudioDelta(delta: Option<string>, itemId: Option<string>)   // response.audio.delta
    | ResponseDone(output: seq<OutputItem>)                        // response.done
    | TranscriptionDelta(partial: Option<string>)                  // ...input_audio_transcription.delta
    | TranscriptionCompleted(transcript: Option<string>)           // ...input_audio_transcription.completed
    | SpeechStarted                                                // input_audio_buffer.speech_started
    | OtherEvent
}

=== FILE: audio_out.dfy ===
/** Relaying the AI engine's audio to the caller (`twilio_handler.py`): each
    `response.audio.delta` becomes a Twilio `media` frame followed, when the
    stream is bound, by a `mark` the handler queues until the caller
    acknowledges it (`send_mark`). */
module AudioOut {
  import opened Common
  import opened Session

  /** The number of `mark` frames among the messages. */
  function MarkCount(out: seq<Outbound>): nat {
    if |out| == 0 then 0
    else (if out[0].ToCaller? && out[0].twilio.Mark? then 1 else 0) + MarkCount(out[1..])
  }

  /** `send_mark(websocket, stream_sid)`: a `responsePart` mark, sent and
      queued, only when the stream id is a non-empty string. */
  function SendMark(s: State): Step {
    if Truthy(s.streamSid) then
      Step(s.(markQueue := s.markQueue + [ResponsePart]), [ToCaller(Mark(s.streamSid.value, ResponsePart))])
    else Step(s, [])
  }

  /** A `response.audio.delta` event. Without a `delta` field nothing
      happens. Otherwise the audio goes to the caller tagged with the
      stream id; the response start is recorded if none is; a non-empty
      `item_id` becomes the assistant item; then a mark is sent. */
  function OnAudioDelta(s: State, delta: Option<string>, itemId: Option<string>): (r: Step)
    ensures delta.None? ==> r == Step(s, [])
    ensures delta.Some? ==> |r.out| >= 1 && r.out[0] == ToCaller(Media(s.streamSid, delta.value))
  {
    if delta.None? then Step(s, [])
    else
      var started := if s.responseStart.None? then s.(responseStart := Some(s.latestMediaTimestamp)) else s;
      var tagged := if Truthy(itemId) then started.(lastAssistantItem := itemId) else started;
      var marked := SendMark(tagged);
      Step(marked.state, [ToCaller(Media(s.streamSid, delta.value))] + marked.out)
  }

  /** What an audio delta sends and changes. It sends the audio to the
      caller, then a `responsePart` mark on that stream only when the stream
      id is a non-empty string, and nothing else; the mark queue grows by
      that mark alone. The response start changes only when none was
      recorded (and then to the latest media timestamp), the assistant item
      only for a non-empty `item_id`; the ids, the timestamp and the log
      stay as they were. */
  lemma AudioDeltaEffect(s: State, delta: string, itemId: Option<string>)
    ensures var r := OnAudioDelta(s, Some(delta), itemId);
            && r.out == [ToCaller(Media(s.streamSid, delta))]
                        + (if Truthy(s.streamSid) then [ToCaller(Mark(s.streamSid.value, ResponsePart))] else [])
            && r.state.markQueue == s.markQueue + (if Truthy(s.streamSid) then [ResponsePart] else [])
            && (s.responseStart.None? ==> r.state.responseStart == Some(s.latestMediaTimestamp))
            && (s.responseStart.Some? ==> r.state.responseStart == s.responseStart)
            && (Truthy(itemId) ==> r.state.lastAssistantItem == itemId)
            && (!Truthy(itemId) ==> r.state.lastAssistantItem == s.lastAssistantItem)
            && |r.state.markQueue| == |s.markQueue| + MarkCount(r.out)
            && r.state.markQueue[..|s.markQueue|] == s.markQueue
            && (MarkCount(r.out) == 1 <==> Truthy(s.streamSid))
            && r.state.streamSid == s.streamSid && r.state.callSid == s.callSid
            && r.state.latestMediaTimestamp == s.latestMediaTimestamp
            && r.state.history == s.history && r.state.relayAlive == s.relayAlive
  {
    var r := OnAudioDelta(s, Some(delta), itemId);
    var media := [ToCaller(Media(s.streamSid, delta))];
    if Truthy(s.streamSid) {
      var m := [ToCaller(Mark(s.streamSid.value, ResponsePart))];
      assert r.out == media + m;
      assert MarkCount(r.out) == MarkCount(r.out[1..]);
      assert r.out[1..] == m;
      assert MarkCount(m) == 1 + MarkCount(m[1..]);
    } else {
      assert r.out == media;
    }
  }

  /** An audio delta keeps the session invariant. */
  lemma AudioDeltaValid(s: State, delta: Option<string>, itemId: Option<string>)
    requires Valid(s)
    ensures Valid(OnAudioDelta(s, delta, itemId).state)
  {
    if delta.Some? {
      var q := OnAudioDelta(s, delta, itemId).state.markQueue;
      assert q == s.markQueue || q == s.markQueue + [ResponsePart];
    }
  }
}

=== FILE: barge_in.dfy ===
/** Barge-in (`twilio_handler.py`): when the caller starts speaking over the
    assistant, the assistant's audio is cut at the point the caller has
    heard (`conversation.item.truncate`), the caller's buffered audio is
    dropped (`clear`), and the response bookkeeping is reset. */
module BargeIn {
  import opened Common
  import opened Session

  /** `handle_speech_started_event`. */
  function HandleSpeechStarted(s: State): Step {
    if |s.markQueue| > 0 && s.responseStart.Some? then
      var elapsed := s.latestMediaTimestamp - s.responseStart.value;
      var truncate := if Truthy(s.lastAssistantItem)
                      then [ToOpenAi(Truncate(s.lastAssistantItem.value, 0, elapsed))]
                      else [];
      Step(s.(markQueue := [], lastAssistantItem := None, responseStart := None),
           truncate + [ToCaller(Clear(s.streamSid))])
    else Step(s, [])
  }

  /** An `input_audio_buffer.speech_started` event: handled only while an
      assistant item is set. */
  function OnSpeechStarted(s: State): Step {
    if Truthy(s.lastAssistantItem) then HandleSpeechStarted(s) else Step(s, [])
  }

  /** Whether speech interrupts anything: an assistant item, unacknowledged
      marks and a recorded response start. */
  predicate Interrupts(s: State) {
    Truthy(s.lastAssistantItem) && |s.markQueue| > 0 && s.responseStart.Some?
  }

  /** Without an assistant item, queued marks and a response start, speech
      changes nothing and sends nothing. */
  lemma QuietWhenNothingPlays(s: State)
    ensures !Interrupts(s) <==> OnSpeechStarted(s) == Step(s, [])
  {
    if Interrupts(s) {
      assert OnSpeechStarted(s).out != [];
    }
  }

  /** Otherwise the assistant item is truncated at the milliseconds played
      since the response started (not clamped at zero), then the caller's
      audio is cleared, and the queue, the item and the start are reset;
      nothing else changes. */
  lemma InterruptEffect(s: State)
    requires Interrupts(s)
    ensures var r := OnSpeechStarted(s);
            && r.out == [ToOpenAi(Truncate(s.lastAssistantItem.value, 0,
                                           s.latestMediaTimestamp - s.responseStart.value)),
                         ToCaller(Clear(s.streamSid))]
            && r.state.markQueue == [] && r.state.lastAssistantItem.None? && r.state.responseStart.None?
            && r.state == s.(markQueue := [], lastAssistantItem := None, responseStart := None)
  {
  }

  /** A second `speech_started` right after a first does nothing. */
  lemma SpeechStartedIdempotent(s: State)
    ensures var r := OnSpeechStarted(s);
            OnSpeechStarted(r.state) == Step(r.state, [])
  {
  }

  /** Speech keeps the session invariant. */
  lemma SpeechStartedValid(s: State)
    requires Valid(s)
    ensures Valid(OnSpeechStarted(s).state)
  {
  }

  /** With media at 5000 ms and a response that started at 2000 ms, item
      "X" is truncated at 3000 ms. */
  lemma TruncationExample()
    ensures var s := State(Some("MZ1"), Some("CA1"), 5000, Some("X"), [ResponsePart], Some(2000), [], true);
            OnSpeechStarted(s).out == [ToOpenAi(Truncate("X", 0, 3000)), ToCaller(Clear(Some("MZ1")))]
  {
  }

  /** A response start recorded after the latest media timestamp (which
      needs a media frame whose timestamp is below the one before it) gives
      a negative `audio_end_ms`: the difference is not clamped. */
  lemma NegativeTruncationPossible()
    ensures var s := State(Some("MZ1"), Some("CA1"), 100, Some("X"), [ResponsePart], Some(2000), [], true);
            Valid(s) && OnSpeechStarted(s).out[0] == ToOpenAi(Truncate("X", 0, -1900))
  {
  }
}

=== FILE: case_lookup.dfy ===
/** What the three CRM tools share: the Salesforce client as a value of
    functions (each call either returns or raises), the query that finds a
    case by its number, and the triage of that query's result. */
module CaseLookup {
  import opened Common
  import Dict
  import opened Json

  /** The outcome of a call into the Salesforce client: a value, or a raised
      exception with its `str(e)`. */
  datatype Remote<T> = Done(value: T) | Failed(detail: string)

  /** A case record as the client returns it (`dict(sf.Case.get(id))`). */
  type Record = Dict.Dict<Json>

  /** The parts of a SOQL query result the tools read: `totalSize` and the
      `Id` of each record in `records`. */
  datatype QueryResult = QueryResult(totalSize: int, recordIds: seq<string>)

  /** An authenticated client: `sf.query`, `sf.Case.get`, `sf.Case.update`
      (which answers with an HTTP status code) and `sf.Case.create` (which
      answers with the new record's `id`). */
  datatype Client = Client(
    query: string -> Remote<QueryResult>,
    getCase: string -> Remote<Record>,
    updateCase: (string, Record) -> Remote<int>,
    createCase: Record -> Remote<string>)

  // ---------------------------------------------------------------------
  // The query

  const QueryPrefix := "SELECT Id FROM Case WHERE CaseNumber = '"

  /** The query for the case with number `n`; `n` is spliced in unescaped. */
  function CaseQuery(n: string): (q: string)
    ensures StartsWith(q, QueryPrefix)
    ensures |q| == |QueryPrefix| + |n| + 1 && q[|q| - 1] == '\''
  {
    QueryPrefix + n + "'"
  }

  /** Reading a case number back out of a query of that shape. */
  function QueriedCaseNumber(q: string): (r: Option<string>)
    ensures r.Some? ==> |q| == |QueryPrefix| + |r.value| + 1
  {
    if |QueryPrefix| + 1 <= |q| && q[..|QueryPrefix|] == QueryPrefix && q[|q| - 1] == '\''
    then Some(q[|QueryPrefix|..|q| - 1])
    else None
  }

  /** The query names exactly the case number it was built from. */
  lemma QueryRoundTrip(n: string)
    ensures QueriedCaseNumber(CaseQuery(n)) == Some(n)
  {
    var q := CaseQuery(n);
    assert q[|QueryPrefix|..|q| - 1] == n;
  }

  /** Different case numbers give different queries. */
  lemma CaseQueryInjective(a: string, b: string)
    requires CaseQuery(a) == CaseQuery(b)
    ensures a == b
  {
    QueryRoundTrip(a);
    QueryRoundTrip(b);
  }

  // ---------------------------------------------------------------------
  // Triage of the query result

  /** `if totalSize == 0: ... elif totalSize > 1: ... ; records[0]["Id"]`. */
  datatype Triage =
    | Unique(caseId: string)    // exactly one record: its id
    | NoCase                    // `totalSize` is 0
    | ManyCases                 // `totalSize` is above 1
    | IndexError                // `totalSize` let the lookup through but `records` is empty

  function TriageOf(q: QueryResult): (r: Triage)
    ensures r == NoCase <==> q.totalSize == 0
    ensures r == ManyCases <==> q.totalSize > 1
    ensures r.Unique? <==> q.totalSize != 0 && q.totalSize <= 1 && |q.recordIds| > 0
    ensures r.Unique? ==> r.caseId == q.recordIds[0]
  {
    if q.totalSize == 0 then NoCase
    else if q.totalSize > 1 then ManyCases
    else if |q.recordIds| == 0 then IndexError
    else Unique(q.recordIds[0])
  }

  function NotFoundMessage(n: string): string {
    "Case with CaseNumber '" + n + "' not found."
  }

  function MultipleMessage(n: string): string {
    "Multiple cases found with CaseNumber '" + n + "'."
  }

  /** `str(e)` of the `IndexError` that `records[0]` raises on an empty list. */
  const IndexErrorText := "list index out of range"

  /** The two lookup errors differ for every pair of case numbers, and each
      names its case number. */
  lemma LookupMessagesDistinct(a: string, b: string)
    ensures NotFoundMessage(a) != MultipleMessage(b)
    ensures NotFoundMessage(a) == NotFoundMessage(b) ==> a == b
    ensures MultipleMessage(a) == MultipleMessage(b) ==> a == b
  {
    var p := "Case with CaseNumber '";
    var m := "Multiple cases found with CaseNumber '";
    assert NotFoundMessage(a)[0] == p[0] && MultipleMessage(b)[0] == m[0];
    if NotFoundMessage(a) == NotFoundMessage(b) {
      assert a == NotFoundMessage(a)[|p|..|p| + |a|];
      assert b == NotFoundMessage(b)[|p|..|p| + |b|];
    }
    if MultipleMessage(a) == MultipleMessage(b) {
      assert a == MultipleMessage(a)[|m|..|m| + |a|];
      assert b == MultipleMessage(b)[|m|..|m| + |b|];
    }
  }

  // ---------------------------------------------------------------------
  // What the tools return

  /** A tool's `dict` result: the case record, or `{"error": message}`. */
  datatype Reply = CaseRecord(fields: Record) | Error(message: string)

  function ReplyJson(r: Reply): (j: Json)
    ensures j.Obj?
    ensures r.Error? ==> j.fields == [("error", Str(r.message))]
  {
    match r
    case CaseRecord(fields) => Obj(fields)
    case Error(m) => Obj([("error", Str(m))])
  }
}

=== FILE: common.dfy ===
/** Small shared vocabulary: optional values, success/failure results,
    Python truthiness of optional strings, string prefixes and Python's
    `str(int)` rendering of integers. */
module Common {

  /** Python's `None` versus a present value. */
  datatype Option<T> = None | Some(value: T) {
    function GetOr(default: T): T {
      match this
      case Some(v) => v
      case None => default
    }
  }

  /** A computation that either produced a value or failed with an error. */
  datatype Result<T, E> = Ok(value: T) | Err(error: E)

  /** Python truthiness of a value that is either `None` or a `str`:
      `None` and `""` are falsy, every other string is truthy. */
  predicate Truthy(o: Option<string>) {
    o.Some? && o.value != ""
  }

  predicate StartsWith(s: string, prefix: string) {
    |prefix| <= |s| && s[..|prefix|] == prefix
  }

  lemma StartsWithConcat(prefix: string, rest: string)
    ensures StartsWith(prefix + rest, prefix)
  {
    assert (prefix + rest)[..|prefix|] == prefix;
  }

  predicate IsDigit(c: char) {
    '0' <= c <= '9'
  }

  function DigitChar(d: nat): (c: char)
    requires d < 10
    ensures IsDigit(c) && c as int - '0' as int == d
  {
    ('0' as int + d) as char
  }

  /** Decimal digits of a natural number, most significant first, no
      leading zeros: Python's `str(n)` for `n >= 0`. */
  function NatText(n: nat): (r: string)
    ensures |r| >= 1
    ensures forall i :: 0 <= i < |r| ==> IsDigit(r[i])
    ensures |r| > 1 ==> r[0] != '0'
  {
    if n < 10 then [DigitChar(n)] else NatText(n / 10) + [DigitChar(n % 10)]
  }

  /** Python's `str(n)` for any integer: a leading `-` for negatives. */
  function IntText(n: int): (r: string)
    ensures n >= 0 ==> r == NatText(n)
    ensures n < 0 ==> r == "-" + NatText(-n)
  {
    if n < 0 then "-" + NatText(-n) else NatText(n)
  }

  /** The value of a string of decimal digits: the reading partner of
      `NatText`. */
  function DecimalValue(s: string): nat
    requires forall i :: 0 <= i < |s| ==> IsDigit(s[i])
  {
    if |s| == 0 then 0
    else
      assert IsDigit(s[|s| - 1]);
      DecimalValue(s[..|s| - 1]) * 10 + (s[|s| - 1] as int - '0' as int)
  }

  /** Reading back the rendering of a natural number gives the number. */
  lemma {:induction false} DecimalValueOfNatText(n: nat)
    ensures DecimalValue(NatText(n)) == n
  {
    var t := NatText(n);
    if n >= 10 {
      DecimalValueOfNatText(n / 10);
      assert t[..|t| - 1] == NatText(n / 10);
    }
  }

  /** Different integers render to different texts. */
  lemma IntTextInjective(a: int, b: int)
    requires IntText(a) == IntText(b)
    ensures a == b
  {
    if a >= 0 && b >= 0 {
      DecimalValueOfNatText(a);
      DecimalValueOfNatText(b);
    } else if a < 0 && b < 0 {
      var ta, tb := NatText(-a), NatText(-b);
      assert ta == IntText(a)[1..] && tb == IntText(b)[1..];
      DecimalValueOfNatText(-a);
      DecimalValueOfNatText(-b);
    }
  }
}

=== FILE: conversation_log.dfy ===
/** `conversation_history` (`twilio_handler.py`): the agent's spoken
    transcripts, logged when a response is done, and the caller's final
    transcripts, logged when transcription completes. The log only grows. */
module ConversationLog {
  import opened Common
  import opened Session
  import opened AiEvents

  /** Whether a content part adds an agent turn: an audio part whose
      transcript is a non-empty string. */
  predicate Spoken(p: ContentPart) {
    p.kind == "audio" && Truthy(p.transcript)
  }

  /** Reference definition: the agent turns a response's output holds, in
      order, one per spoken part of each message item. */
  function SpokenParts(parts: seq<ContentPart>): (r: seq<Turn>)
    ensures |r| <= |parts|
    ensures forall i :: 0 <= i < |r| ==> r[i].Agent? && r[i].text != ""
  {
    if |parts| == 0 then []
    else (if Spoken(parts[0]) then [Agent(parts[0].transcript.value)] else []) + SpokenParts(parts[1..])
  }

  function ResponseTurns(items: seq<OutputItem>): (r: seq<Turn>)
    ensures forall i :: 0 <= i < |r| ==> r[i].Agent? && r[i].text != ""
  {
    if |items| == 0 then []
    else (if items[0].MessageItem? then SpokenParts(items[0].content) else []) + ResponseTurns(items[1..])
  }

  /** The inner loop over one message item's content: append each spoken
      transcript to the log as it is met. */
  function LogParts(h: seq<Turn>, parts: seq<ContentPart>): seq<Turn>
    decreases |parts|
  {
    if |parts| == 0 then h
    else LogParts(if Spoken(parts[0]) then h + [Agent(parts[0].transcript.value)] else h, parts[1..])
  }

  /** The `response.done` loop over the output items. */
  function LogResponse(h: seq<Turn>, items: seq<OutputItem>): seq<Turn>
    decreases |items|
  {
    if |items| == 0 then h
    else LogResponse(if items[0].MessageItem? then LogParts(h, items[0].content) else h, items[1..])
  }

  /** Appending part by part yields the log followed by the reference turns. */
  lemma {:induction false} LogPartsAppends(h: seq<Turn>, parts: seq<ContentPart>)
    ensures LogParts(h, parts) == h + SpokenParts(parts)
    decreases |parts|
  {
    if |parts| > 0 {
      var next := if Spoken(parts[0]) then h + [Agent(parts[0].transcript.value)] else h;
      LogPartsAppends(next, parts[1..]);
    }
  }

  /** A `response.done` event appends exactly the response's spoken agent
      transcripts, in output order, and keeps what was logged before. */
  lemma {:induction false} LogResponseAppends(h: seq<Turn>, items: seq<OutputItem>)
    ensures LogResponse(h, items) == h + ResponseTurns(items)
    decreases |items|
  {
    if |items| > 0 {
      var next := if items[0].MessageItem? then LogParts(h, items[0].content) else h;
      if items[0].MessageItem? {
        LogPartsAppends(h, items[0].content);
      }
      LogResponseAppends(next, items[1..]);
    }
  }

  /** Text parts, empty or missing transcripts and non-message items add
      nothing: a response whose one message holds a text part and an audio
      part adds just the audio part's transcript. */
  lemma OnlySpokenAudioIsLogged(h: seq<Turn>, t: string, u: string)
    requires t != ""
    ensures LogResponse(h, [OtherItem, MessageItem([ContentPart("text", Some(u)), ContentPart("audio", Some(t)),
                                                    ContentPart("audio", Some(""))])])
            == h + [Agent(t)]
  {
    var parts := [ContentPart("text", Some(u)), ContentPart("audio", Some(t)), ContentPart("audio", Some(""))];
    LogResponseAppends(h, [OtherItem, MessageItem(parts)]);
    assert SpokenParts(parts[2..]) == [];
    assert SpokenParts(parts[1..]) == [Agent(t)];
    assert SpokenParts(parts) == [Agent(t)];
    var items := [OtherItem, MessageItem(parts)];
    assert ResponseTurns(items[1..][1..]) == [];
    assert ResponseTurns(items[1..]) == [Agent(t)];
  }

  /** `conversation.item.input_audio_transcription.completed`: a non-empty
      transcript is logged as the caller's turn. */
  function LogUserTranscript(h: seq<Turn>, transcript: Option<string>): seq<Turn> {
    if Truthy(transcript) then h + [User(transcript.value)] else h
  }
}

=== FILE: create_case.dfy ===
/** `create_case` (`tools/create_case.py`): assemble the new case's fields,
    create it, and return the stored record. Nothing is caught: a failing
    call propagates to the caller. */
module CreateCaseTool {
  import opened Common
  import Dict
  import opened Json
  import opened CaseLookup

  /** The arguments of `create_case`, in declaration order. The disputed
      amount is a Python `float`, here a real number. */
  datatype CreateArgs = CreateArgs(
    subject: string,
    contactPhone: string,
    body: string,
    disputedAmount: Option<real>,
    description: Option<string>,
    aiSummaryContent: Option<string>,
    priority: Option<string>,
    requestType: Option<string>)

  /** The user every new case is assigned to. */
  const AssigneeId := "005dM00000BANfRQAX"

  const Rule := "----------------------------------------"

  /** The first two lines of the internal comment. */
  function CommentsHeader(timestamp: string): string {
    "\nOriginal Complaint (Received through Voicebot: " + timestamp + ")\n" + Rule + "\n"
  }

  /** `format_internal_comments(subject, body)`, with the clock reading
      (`%Y-%m-%d %H:%M:%S`) given as `timestamp`. */
  function FormatInternalComments(subject: string, body: string, timestamp: string): string {
    CommentsHeader(timestamp) + "Subject: " + subject + "\n" + body + "\n"
  }

  /** The comment opens with the header naming the time and ends with the
      line `Subject: <subject>` followed by the body on its own line(s). */
  lemma {:induction false} CommentsLayout(subject: string, body: string, timestamp: string)
    ensures var c := FormatInternalComments(subject, body, timestamp);
            var tail := "Subject: " + subject + "\n" + body + "\n";
            && StartsWith(c, CommentsHeader(timestamp))
            && |c| == |CommentsHeader(timestamp)| + |tail|
            && c[|c| - |tail|..] == tail
  {
    var c := FormatInternalComments(subject, body, timestamp);
    var tail := "Subject: " + subject + "\n" + body + "\n";
    assert c == CommentsHeader(timestamp) + tail;
    StartsWithConcat(CommentsHeader(timestamp), tail);
  }

  /** `str(disputed_amount) if disputed_amount else None`: a zero amount is
      falsy and, like a missing one, gives `None`. `floatText` is `str` on
      floats. */
  function DisputedAmount(amount: Option<real>, floatText: real -> string): (j: Json)
    ensures j == Null <==> amount.None? || amount.value == 0.0
    ensures j != Null ==> j == Str(floatText(amount.value))
  {
    if amount.Some? && amount.value != 0.0 then Str(floatText(amount.value)) else Null
  }

  function StrOf(o: Option<string>): Option<Json> {
    if o.Some? then Some(Str(o.value)) else None
  }

  /** The nine fields every new case gets, in the order the dict literal
      lists them. */
  function BaseFields(a: CreateArgs, timestamp: string, floatText: real -> string): Record {
    [ ("Subject", Str(a.subject)),
      ("Description", OptionalStr(a.description)),
      ("SuppliedPhone", Str(a.contactPhone)),
      ("Origin", Str("Web")),
      ("Status", Str("Pending")),
      ("Request_Subject_Name__c", Str(a.subject)),
      ("Disputed_Amount__c", DisputedAmount(a.disputedAmount, floatText)),
      ("Comments", Str(FormatInternalComments(a.subject, a.body, timestamp))),
      ("Assigned_To__c", Str(AssigneeId)) ]
  }

  /** The fields added only when their argument is not `None`. */
  function OptionalSlots(a: CreateArgs): seq<(string, Option<Json>)> {
    [ ("AI_Summary_Content__c", StrOf(a.aiSummaryContent)),
      ("Priority", StrOf(a.priority)),
      ("Request_Type__c", StrOf(a.requestType)) ]
  }

  /** `case_data`. */
  function CaseData(a: CreateArgs, timestamp: string, floatText: real -> string): Record {
    Dict.PutAll(BaseFields(a, timestamp, floatText), OptionalSlots(a))
  }

  const BaseKeys := ["Subject", "Description", "SuppliedPhone", "Origin", "Status",
                     "Request_Subject_Name__c", "Disputed_Amount__c", "Comments", "Assigned_To__c"]

  /** The assembled record starts with the nine fixed fields, in the order
      of the dict literal. */
  lemma {:induction false} CaseDataFixedFields(a: CreateArgs, timestamp: string, floatText: real -> string)
    ensures var d := CaseData(a, timestamp, floatText);
            && |d| >= 9
            && d[0] == ("Subject", Str(a.subject))
            && d[1] == ("Description", OptionalStr(a.description))
            && d[2] == ("SuppliedPhone", Str(a.contactPhone))
            && d[3] == ("Origin", Str("Web"))
            && d[4] == ("Status", Str("Pending"))
            && d[5] == ("Request_Subject_Name__c", Str(a.subject))
            && d[6] == ("Disputed_Amount__c", DisputedAmount(a.disputedAmount, floatText))
            && d[7] == ("Comments", Str(FormatInternalComments(a.subject, a.body, timestamp)))
            && d[8] == ("Assigned_To__c", Str(AssigneeId))
  {
    OptionalKeysFresh(a, timestamp, floatText);
  }

  /** No optional key is one of the nine fixed keys. */
  lemma OptionalKeysFresh(a: CreateArgs, timestamp: string, floatText: real -> string)
    ensures Dict.Distinct(Dict.SlotKeys(OptionalSlots(a)))
    ensures forall i :: 0 <= i < |OptionalSlots(a)| ==>
              OptionalSlots(a)[i].0 !in Dict.Keys(BaseFields(a, timestamp, floatText))
    ensures CaseData(a, timestamp, floatText) ==
              BaseFields(a, timestamp, floatText) + Dict.Present(OptionalSlots(a))
  {
    var base := BaseFields(a, timestamp, floatText);
    var slots := OptionalSlots(a);
    assert Dict.Keys(base) == BaseKeys;
    assert Dict.SlotKeys(slots) == ["AI_Summary_Content__c", "Priority", "Request_Type__c"];
    Dict.PutAllFresh(base, slots);
  }

  /** The optional fields are present exactly when their argument is not
      `None`, and then hold it. */
  lemma {:induction false} CaseDataOptionalFields(a: CreateArgs, timestamp: string, floatText: real -> string)
    ensures var d := CaseData(a, timestamp, floatText);
            && Dict.Get(d, "AI_Summary_Content__c") == StrOf(a.aiSummaryContent)
            && Dict.Get(d, "Priority") == StrOf(a.priority)
            && Dict.Get(d, "Request_Type__c") == StrOf(a.requestType)
  {
    var base := BaseFields(a, timestamp, floatText);
    var slots := OptionalSlots(a);
    OptionalKeysFresh(a, timestamp, floatText);
    forall i | 0 <= i < |slots|
      ensures Dict.Get(base + Dict.Present(slots), slots[i].0) == slots[i].1
    {
      Dict.GetAfterMissing(base, Dict.Present(slots), slots[i].0);
      Dict.GetPresent(slots, i);
    }
    assert slots[0].0 == "AI_Summary_Content__c" && slots[1].0 == "Priority" && slots[2].0 == "Request_Type__c";
  }

  /** `create_case(...)`. `connect` is the outcome of fetching credentials
      and opening the client; a failure anywhere is raised to the caller. */
  function CreateCase(connect: Remote<Client>, a: CreateArgs, timestamp: string, floatText: real -> string): (r: Remote<Record>)
    ensures connect.Failed? ==> r == Failed(connect.detail)
    ensures connect.Done? && connect.value.createCase(CaseData(a, timestamp, floatText)).Failed? ==>
              r == Failed(connect.value.createCase(CaseData(a, timestamp, floatText)).detail)
    ensures r.Done? <==>
              && connect.Done?
              && connect.value.createCase(CaseData(a, timestamp, floatText)).Done?
              && connect.value.getCase(connect.value.createCase(CaseData(a, timestamp, floatText)).value).Done?
    ensures r.Done? ==>
              r == connect.value.getCase(connect.value.createCase(CaseData(a, timestamp, floatText)).value)
  {
    match connect
    case Failed(d) => Failed(d)
    case Done(sf) =>
      match sf.createCase(CaseData(a, timestamp, floatText))
      case Failed(d) => Failed(d)
      case Done(id) => sf.getCase(id)
  }
}

=== FILE: dict.dfy ===
/** Python's insertion-ordered `dict` with string keys, as a sequence of
    key/value pairs. Assigning to an existing key replaces its value in
    place; assigning to a new key appends it at the end. */
module Dict {
  import opened Common

  type Dict<V> = seq<(string, V)>

  function Keys<V>(d: Dict<V>): seq<string> {
    seq(|d|, i requires 0 <= i < |d| => d[i].0)
  }

  predicate DistinctKeys<V>(d: Dict<V>) {
    forall i, j :: 0 <= i < j < |d| ==> d[i].0 != d[j].0
  }

  /** `d.get(k)`: the value of the first pair with key `k`. */
  function Get<V>(d: Dict<V>, k: string): (r: Option<V>)
    ensures r.None? <==> k !in Keys(d)
    ensures r.Some? ==> (k, r.value) in d
  {
    if |d| == 0 then None
    else
      assert Keys(d) == [d[0].0] + Keys(d[1..]);
      if d[0].0 == k then Some(d[0].1) else Get(d[1..], k)
  }

  /** `d[k] = v`. */
  function Put<V>(d: Dict<V>, k: string, v: V): (r: Dict<V>)
    ensures Get(r, k) == Some(v)
    ensures forall k' :: k' != k ==> Get(r, k') == Get(d, k')
    ensures k in Keys(d) ==> Keys(r) == Keys(d)
    ensures k !in Keys(d) ==> Keys(r) == Keys(d) + [k]
  {
    if |d| == 0 then [(k, v)]
    else if d[0].0 == k then
      assert Keys([(k, v)] + d[1..]) == Keys(d);
      [(k, v)] + d[1..]
    else
      var rest := Put(d[1..], k, v);
      assert Keys(d) == [d[0].0] + Keys(d[1..]);
      assert Keys([d[0]] + rest) == [d[0].0] + Keys(rest);
      [d[0]] + rest
  }

  /** Assignment keeps the keys of a well-formed dict distinct. */
  lemma {:induction false} PutKeepsDistinct<V>(d: Dict<V>, k: string, v: V)
    requires DistinctKeys(d)
    ensures DistinctKeys(Put(d, k, v))
  {
    var r := Put(d, k, v);
    assert Keys(r) == Keys(d) || Keys(r) == Keys(d) + [k];
    forall i, j | 0 <= i < j < |r|
      ensures r[i].0 != r[j].0
    {
      assert Keys(r)[i] == r[i].0 && Keys(r)[j] == r[j].0;
      if j == |d| {
        assert k !in Keys(d);
        assert Keys(d)[i] == d[i].0;
      } else {
        assert Keys(d)[i] == d[i].0 && Keys(d)[j] == d[j].0;
      }
    }
  }

  /** Assigning to a key the dict does not hold appends the pair. */
  lemma {:induction false} PutNewKeyAppends<V>(d: Dict<V>, k: string, v: V)
    requires k !in Keys(d)
    ensures Put(d, k, v) == d + [(k, v)]
  {
    if |d| > 0 {
      assert Keys(d) == [d[0].0] + Keys(d[1..]);
      PutNewKeyAppends(d[1..], k, v);
      assert d == [d[0]] + d[1..];
    }
  }

  /** The pairs of `slots` whose value is present, in order: the dict a run
      of `if value is not None: d[key] = value` statements builds. */
  function Present<V>(slots: seq<(string, Option<V>)>): (r: Dict<V>)
    ensures |r| <= |slots|
  {
    if |slots| == 0 then []
    else (if slots[0].1.Some? then [(slots[0].0, slots[0].1.value)] else []) + Present(slots[1..])
  }

  /** `if value is not None: d[key] = value` for each slot in turn. */
  function PutAll<V>(d: Dict<V>, slots: seq<(string, Option<V>)>): Dict<V>
    decreases |slots|
  {
    if |slots| == 0 then d
    else PutAll(if slots[0].1.Some? then Put(d, slots[0].0, slots[0].1.value) else d, slots[1..])
  }

  function SlotKeys<V>(slots: seq<(string, Option<V>)>): seq<string> {
    seq(|slots|, i requires 0 <= i < |slots| => slots[i].0)
  }

  predicate Distinct(ks: seq<string>) {
    forall i, j :: 0 <= i < j < |ks| ==> ks[i] != ks[j]
  }

  /** The keys of `Present(slots)` are among the slots' keys. */
  lemma {:induction false} PresentKeys<V>(slots: seq<(string, Option<V>)>)
    ensures forall k :: k in Keys(Present(slots)) ==> k in SlotKeys(slots)
  {
    if |slots| > 0 {
      PresentKeys(slots[1..]);
      assert Present(slots) == Head(slots) + Present(slots[1..]);
      assert Keys(Head(slots) + Present(slots[1..])) == Keys(Head(slots)) + Keys(Present(slots[1..]));
      assert SlotKeys(slots) == [slots[0].0] + SlotKeys(slots[1..]);
    }
  }

  /** The pairs the first slot contributes to `Present`. */
  function Head<V>(slots: seq<(string, Option<V>)>): Dict<V>
    requires |slots| > 0
  {
    if slots[0].1.Some? then [(slots[0].0, slots[0].1.value)] else []
  }

  /** One assignment step of `PutAll` with a fresh key appends the slot. */
  lemma PutAllStep<V>(d: Dict<V>, slots: seq<(string, Option<V>)>)
    requires |slots| > 0 && slots[0].0 !in Keys(d)
    ensures PutAll(d, slots) == PutAll(d + Head(slots), slots[1..])
  {
    if slots[0].1.Some? {
      PutNewKeyAppends(d, slots[0].0, slots[0].1.value);
    } else {
      assert d + Head(slots) == d;
    }
  }

  /** Keys absent from `d` and distinct from the first slot's key stay
      absent once the first slot is appended. */
  lemma FreshAfterHead<V>(d: Dict<V>, slots: seq<(string, Option<V>)>)
    requires |slots| > 0 && Distinct(SlotKeys(slots))
    requires forall i :: 0 <= i < |slots| ==> slots[i].0 !in Keys(d)
    ensures forall i :: 0 <= i < |slots[1..]| ==> slots[1..][i].0 !in Keys(d + Head(slots))
    ensures Distinct(SlotKeys(slots[1..]))
  {
    assert Keys(d + Head(slots)) == Keys(d) + Keys(Head(slots));
    forall i | 0 <= i < |slots[1..]|
      ensures slots[1..][i].0 !in Keys(d + Head(slots))
    {
      assert SlotKeys(slots)[0] == slots[0].0 && SlotKeys(slots)[i + 1] == slots[1..][i].0;
    }
    assert SlotKeys(slots[1..]) == SlotKeys(slots)[1..];
  }

  /** Assigning fresh, distinct keys in turn appends exactly the present
      slots. */
  lemma {:induction false} PutAllFresh<V>(d: Dict<V>, slots: seq<(string, Option<V>)>)
    requires Distinct(SlotKeys(slots))
    requires forall i :: 0 <= i < |slots| ==> slots[i].0 !in Keys(d)
    ensures PutAll(d, slots) == d + Present(slots)
    decreases |slots|
  {
    if |slots| > 0 {
      PutAllStep(d, slots);
      FreshAfterHead(d, slots);
      PutAllFresh(d + Head(slots), slots[1..]);
      assert Present(slots) == Head(slots) + Present(slots[1..]);
      assert (d + Head(slots)) + Present(slots[1..]) == d + (Head(slots) + Present(slots[1..]));
    }
  }

  /** In the dict of present slots with distinct keys, each slot's key maps
      to the slot's value, and is absent exactly when that value is. */
  lemma {:induction false} GetPresent<V>(slots: seq<(string, Option<V>)>, i: nat)
    requires Distinct(SlotKeys(slots))
    requires i < |slots|
    ensures Get(Present(slots), slots[i].0) == slots[i].1
  {
    assert Present(slots) == Head(slots) + Present(slots[1..]);
    assert SlotKeys(slots[1..]) == SlotKeys(slots)[1..];
    if i == 0 {
      if slots[0].1.None? {
        PresentKeys(slots[1..]);
        forall j | 0 <= j < |slots[1..]|
          ensures SlotKeys(slots[1..])[j] != slots[0].0
        {
          assert SlotKeys(slots)[j + 1] != SlotKeys(slots)[0];
        }
        assert slots[0].0 !in SlotKeys(slots[1..]);
        assert Present(slots) == Present(slots[1..]);
      }
    } else {
      GetPresent(slots[1..], i - 1);
      assert SlotKeys(slots)[i] != SlotKeys(slots)[0];
      if slots[0].1.Some? {
        assert (Head(slots) + Present(slots[1..]))[1..] == Present(slots[1..]);
      }
    }
  }

  /** No pair is present exactly when every slot is empty. */
  lemma {:induction false} PresentEmpty<V>(slots: seq<(string, Option<V>)>)
    ensures Present(slots) == [] <==> forall i :: 0 <= i < |slots| ==> slots[i].1.None?
  {
    if |slots| > 0 {
      PresentEmpty(slots[1..]);
      assert Present(slots) == Head(slots) + Present(slots[1..]);
      if forall i :: 0 <= i < |slots[1..]| ==> slots[1..][i].1.None? {
        if slots[0].1.None? {
          forall i | 0 <= i < |slots|
            ensures slots[i].1.None?
          {
            if i > 0 { assert slots[i] == slots[1..][i - 1]; }
          }
        }
      } else {
        var i :| 0 <= i < |slots[1..]| && slots[1..][i].1.Some?;
        assert slots[i + 1].1.Some?;
      }
    }
  }

  /** A key the front part lacks is looked up in the back part. */
  lemma {:induction false} GetAfterMissing<V>(front: Dict<V>, back: Dict<V>, k: string)
    requires k !in Keys(front)
    ensures Get(front + back, k) == Get(back, k)
  {
    if |front| > 0 {
      assert Keys(front) == [front[0].0] + Keys(front[1..]);
      GetAfterMissing(front[1..], back, k);
      assert (front + back)[1..] == front[1..] + back;
    } else {
      assert front + back == back;
    }
  }
}

=== FILE: function_calls.dfy ===
/** Function calling inside `send_to_twilio` (`twilio_handler.py`): after a
    `response.done`, every `function_call` output item is run through the
    registry and answered with its result and a request for a new response.
    An exception on the way (unparseable arguments, arguments that are not
    an object where a key must be added) ends the relay loop. */
module FunctionCalls {
  import opened Common
  import Dict
  import opened Json
  import opened Registry
  import opened Session
  import opened AiEvents
  import Signatures

  /** `fn_args = item.get("arguments", "{}")` then
      `json.loads(fn_args) if fn_args else {}`: a missing, `null` or empty
      argument text stands for the empty object. */
  function ArgsOf(arguments: Option<string>, parse: string -> ParseResult): ParseResult {
    if Truthy(arguments) then parse(arguments.value) else Parsed(Obj([]))
  }

  /** The key the session adds for `create_case` and `hangup_call`. `None`
      stands for the `TypeError` item assignment raises on a parsed value
      that is not an object. */
  function Inject(name: Option<string>, args: Json, s: State): (r: Option<Json>)
    ensures name != Some("create_case") && name != Some("hangup_call") ==> r == Some(args)
    ensures name == Some("create_case") || name == Some("hangup_call") ==> (r.Some? <==> args.Obj?)
    ensures name == Some("create_case") && args.Obj? ==>
              r.value.Obj? && Dict.Get(r.value.fields, "conversation_history") == Some(HistoryJson(s.history))
              && forall k :: k != "conversation_history" ==> Dict.Get(r.value.fields, k) == Dict.Get(args.fields, k)
    ensures name == Some("hangup_call") && args.Obj? ==>
              r.value.Obj? && Dict.Get(r.value.fields, "call_sid") == Some(OptionalStr(s.callSid))
              && forall k :: k != "call_sid" ==> Dict.Get(r.value.fields, k) == Dict.Get(args.fields, k)
  {
    if name == Some("create_case") then
      if args.Obj? then Some(Obj(Dict.Put(args.fields, "conversation_history", HistoryJson(s.history)))) else None
    else if name == Some("hangup_call") then
      if args.Obj? then Some(Obj(Dict.Put(args.fields, "call_sid", OptionalStr(s.callSid)))) else None
    else Some(args)
  }

  /** `call_function(fn_name, json.dumps(args))`, with the serialise/parse
      round trip taken as the identity (`Registry.CallFunctionOnSerialised`).
      A missing name is looked up as `None` and is never found. */
  function Dispatch(fm: FunctionMap, name: Option<string>, args: Json): Envelope {
    if name.None? then Failure(NotFoundMessage("None")) else CallParsed(fm, name.value, args)
  }

  /** The two messages that answer one call. */
  function Answer(callId: Option<string>, env: Envelope): seq<Outbound> {
    [ToOpenAi(FunctionCallOutput(callId, env)), ToOpenAi(ResponseCreate)]
  }

  /** One `function_call` item. */
  function CallItem(s: State, fm: FunctionMap, parse: string -> ParseResult,
                    name: Option<string>, arguments: Option<string>, callId: Option<string>): (r: Step)
    ensures r.out == [] ==> r.state == s.(relayAlive := false)
    ensures r.out != [] ==> r.state == s
    ensures r.out != [] ==> exists env :: r.out == Answer(callId, env)
  {
    match ArgsOf(arguments, parse)
    case Malformed(_) => Step(s.(relayAlive := false), [])
    case Parsed(args) =>
      match Inject(name, args, s)
      case None => Step(s.(relayAlive := false), [])
      case Some(sent) => Step(s, Answer(callId, Dispatch(fm, name, sent)))
  }

  /** One output item: only `function_call` items do anything. */
  function HandleItem(s: State, fm: FunctionMap, parse: string -> ParseResult, item: OutputItem): (r: Step)
    ensures !item.FunctionCallItem? ==> r == Step(s, [])
    ensures item.FunctionCallItem? ==> r == CallItem(s, fm, parse, item.name, item.arguments, item.callId)
  {
    match item
    case FunctionCallItem(n, a, c) => CallItem(s, fm, parse, n, a, c)
    case _ => Step(s, [])
  }

  /** The loop over `response.output`: items are handled in order until one
      raises. */
  function RunCalls(s: State, fm: FunctionMap, parse: string -> ParseResult, items: seq<OutputItem>): Step
    decreases |items|
  {
    if |items| == 0 || !s.relayAlive then Step(s, [])
    else
      var first := HandleItem(s, fm, parse, items[0]);
      var rest := RunCalls(first.state, fm, parse, items[1..]);
      Step(rest.state, first.out + rest.out)
  }

  /** The call ids of the `function_call` items, in output order. */
  function CallIds(items: seq<OutputItem>): (r: seq<Option<string>>)
    ensures |r| <= |items|
  {
    if |items| == 0 then []
    else (if items[0].FunctionCallItem? then [items[0].callId] else []) + CallIds(items[1..])
  }

  /** The messages answer the given call ids, each with a result followed by
      `response.create`. */
  predicate Answers(out: seq<Outbound>, ids: seq<Option<string>>)
    decreases |ids|
  {
    if |ids| == 0 then out == []
    else && |out| >= 2
         && out[0].ToOpenAi? && out[0].ai.FunctionCallOutput? && out[0].ai.callId == ids[0]
         && out[1] == ToOpenAi(ResponseCreate)
         && Answers(out[2..], ids[1..])
  }

  /** Answer lists concatenate. */
  lemma {:induction false} AnswersConcat(a: seq<Outbound>, x: seq<Option<string>>, b: seq<Outbound>, y: seq<Option<string>>)
    requires Answers(a, x) && Answers(b, y)
    ensures Answers(a + b, x + y)
    decreases |x|
  {
    if |x| == 0 {
      assert a + b == b && x + y == y;
    } else {
      AnswersConcat(a[2..], x[1..], b, y);
      assert (a + b)[2..] == a[2..] + b;
      assert (x + y)[1..] == x[1..] + y;
    }
  }

  /** After the loop: the relay answered the first `|out| / 2` call ids,
      in order, it is still alive exactly when it answered all of them, and
      nothing but its liveness changed. */
  predicate AnsweredPrefix(s: State, ids: seq<Option<string>>, r: Step) {
    && |r.out| % 2 == 0 && |r.out| <= 2 * |ids|
    && Answers(r.out, ids[..|r.out| / 2])
    && (r.state.relayAlive <==> |r.out| == 2 * |ids|)
    && r.state == s.(relayAlive := r.state.relayAlive)
  }

  /** The loop step for an answered `function_call` item. */
  lemma AnsweredStep(s: State, id: Option<string>, env: Envelope, restIds: seq<Option<string>>, rest: Step)
    requires s.relayAlive
    requires AnsweredPrefix(s, restIds, rest)
    ensures AnsweredPrefix(s, [id] + restIds, Step(rest.state, Answer(id, env) + rest.out))
  {
    var k := |rest.out| / 2;
    var ids := [id] + restIds;
    var out := Answer(id, env) + rest.out;
    assert Answers(Answer(id, env), [id]) by {
      assert Answer(id, env)[2..] == [];
    }
    AnswersConcat(Answer(id, env), [id], rest.out, restIds[..k]);
    assert ids[..k + 1] == [id] + restIds[..k];
    assert |out| / 2 == k + 1;
  }

  /** Calls are answered in the order they were requested, each exactly
      once, until one raises: the answered ids are a prefix of the call ids,
      all of them exactly when the relay is still alive afterwards. The
      session's other fields are not touched. */
  lemma {:induction false} CallsAnsweredInOrder(s: State, fm: FunctionMap, parse: string -> ParseResult, items: seq<OutputItem>)
    requires s.relayAlive
    ensures AnsweredPrefix(s, CallIds(items), RunCalls(s, fm, parse, items))
    decreases |items|
  {
    var r := RunCalls(s, fm, parse, items);
    var ids := CallIds(items);
    if |items| > 0 {
      var first := HandleItem(s, fm, parse, items[0]);
      var rest := RunCalls(first.state, fm, parse, items[1..]);
      var restIds := CallIds(items[1..]);
      assert r == Step(rest.state, first.out + rest.out);
      if !first.state.relayAlive {
        assert rest == Step(first.state, []);
        assert |ids| == 1 + |restIds|;
        assert r.out == [];
      } else if items[0].FunctionCallItem? {
        CallsAnsweredInOrder(s, fm, parse, items[1..]);
        var env :| first.out == Answer(items[0].callId, env);
        assert ids == [items[0].callId] + restIds;
        AnsweredStep(s, items[0].callId, env, restIds, rest);
      } else {
        CallsAnsweredInOrder(s, fm, parse, items[1..]);
        assert first.out + rest.out == rest.out;
        assert ids == restIds;
      }
    }
  }

  /** Unparseable arguments end the relay with nothing sent for the call. */
  lemma MalformedArgumentsEndRelay(s: State, fm: FunctionMap, parse: string -> ParseResult,
                                   name: Option<string>, text: string, callId: Option<string>)
    requires text != "" && parse(text).Malformed?
    ensures CallItem(s, fm, parse, name, Some(text), callId) == Step(s.(relayAlive := false), [])
  {
  }

  /** A `create_case` call from the session never runs the tool: the
      injected `conversation_history` is a keyword `create_case` does not
      declare, so binding raises and the answer is a "raised" error. */
  lemma CreateCaseCallFails(s: State, fm: FunctionMap, parse: string -> ParseResult, tool: Tool,
                            arguments: Option<string>, callId: Option<string>)
    requires Dict.Get(fm, "create_case") == Some(Callable(tool))
    requires tool.params == Signatures.CreateCaseParams
    requires ArgsOf(arguments, parse).Parsed? && ArgsOf(arguments, parse).value.Obj?
    ensures var r := CallItem(s, fm, parse, Some("create_case"), arguments, callId);
            && r.state == s
            && |r.out| == 2 && r.out[0].ai.output.Failure?
            && StartsWith(r.out[0].ai.output.error, RaisedPrefix("create_case"))
  {
    var args := ArgsOf(arguments, parse).value;
    var sent := Inject(Some("create_case"), args, s).value;
    assert "conversation_history" in Dict.Keys(sent.fields);
    Signatures.CreateCaseRefusesHistory(sent.fields);
  }

  /** A `hangup_call` request with object arguments runs with `call_sid`
      set to the call's own sid, whatever the AI sent under that key, and
      every other argument kept; arguments that are not an object end the
      relay. */
  lemma HangupInjectsCallSid(s: State, fm: FunctionMap, parse: string -> ParseResult,
                             arguments: Option<string>, callId: Option<string>)
    requires ArgsOf(arguments, parse).Parsed?
    ensures var args := ArgsOf(arguments, parse).value;
            var r := CallItem(s, fm, parse, Some("hangup_call"), arguments, callId);
            && (args.Obj? ==>
                  r == Step(s, Answer(callId, CallParsed(fm, "hangup_call",
                                      Obj(Dict.Put(args.fields, "call_sid", OptionalStr(s.callSid)))))))
            && (!args.Obj? ==> r == Step(s.(relayAlive := false), []))
  {
  }

  /** A `hangup_call` request with no arguments, or with only a `call_sid`
      of the AI's choosing, runs `hangup_call` with the call's own sid
      (`null` before the `start` frame). */
  lemma HangupUsesCallSid(s: State, fm: FunctionMap, parse: string -> ParseResult, tool: Tool,
                          arguments: Option<string>, callId: Option<string>)
    requires Dict.Get(fm, "hangup_call") == Some(Callable(tool))
    requires tool.params == Signatures.HangupCallParams
    requires tool.body(map["call_sid" := OptionalStr(s.callSid)]).Returned?
    requires ArgsOf(arguments, parse).Parsed? && ArgsOf(arguments, parse).value.Obj?
    requires var f := ArgsOf(arguments, parse).value.fields;
             f == [] || (|f| == 1 && f[0].0 == "call_sid")
    ensures CallItem(s, fm, parse, Some("hangup_call"), arguments, callId) ==
              Step(s, Answer(callId, Success(tool.body(map["call_sid" := OptionalStr(s.callSid)]).value)))
  {
    var f := ArgsOf(arguments, parse).value.fields;
    var sent := Inject(Some("hangup_call"), Obj(f), s).value;
    assert sent == Obj([("call_sid", OptionalStr(s.callSid))]) by {
      if f != [] {
        assert f == [("call_sid", f[0].1)];
      }
    }
    Signatures.HangupCallBindsCallSid(OptionalStr(s.callSid));
  }

  /** Any other name gets its parsed arguments unchanged. */
  lemma OtherCallsPassArguments(s: State, fm: FunctionMap, parse: string -> ParseResult,
                                name: string, arguments: Option<string>, callId: Option<string>)
    requires name != "create_case" && name != "hangup_call"
    requires ArgsOf(arguments, parse).Parsed?
    ensures CallItem(s, fm, parse, Some(name), arguments, callId) ==
              Step(s, Answer(callId, CallParsed(fm, name, ArgsOf(arguments, parse).value)))
  {
  }

  /** A call without arguments behaves as `call_function` on the empty
      text, which stands for `{}`. */
  lemma MissingArgumentsMeanEmptyObject(s: State, fm: FunctionMap, parse: string -> ParseResult,
                                        name: string, callId: Option<string>)
    requires name != "create_case" && name != "hangup_call"
    ensures CallItem(s, fm, parse, Some(name), None, callId) == Step(s, Answer(callId, CallFunction(fm, name, "", parse)))
    ensures CallItem(s, fm, parse, Some(name), Some(""), callId) == CallItem(s, fm, parse, Some(name), None, callId)
  {
  }

  /** An item without a name is answered with "Function 'None' not found."
      once its arguments parse. */
  lemma NamelessCallNotFound(s: State, fm: FunctionMap, parse: string -> ParseResult,
                             arguments: Option<string>, callId: Option<string>)
    requires ArgsOf(arguments, parse).Parsed?
    ensures CallItem(s, fm, parse, None, arguments, callId) ==
              Step(s, Answer(callId, Failure("Function 'None' not found.")))
  {
    assert NotFoundMessage("None") == "Function 'None' not found.";
  }
}

=== FILE: get_case.dfy ===
/** `get_case` (`tools/get_case.py`): find a case by its number and return
    its record, or an error dict; every exception becomes an error. */
module GetCaseTool {
  import opened CaseLookup

  /** `get_case(case_number)`. `connect` is the outcome of logging in with
      the credentials from the environment. */
  function GetCase(connect: Remote<Client>, caseNumber: string): (r: Reply)
    ensures connect.Failed? ==> r == Error(connect.detail)
    ensures connect.Done? && connect.value.query(CaseQuery(caseNumber)).Failed? ==>
              r == Error(connect.value.query(CaseQuery(caseNumber)).detail)
    ensures connect.Done? && connect.value.query(CaseQuery(caseNumber)).Done? ==>
              var t := TriageOf(connect.value.query(CaseQuery(caseNumber)).value);
              && (t.IndexError? ==> r == Error(IndexErrorText))
              && (t.Unique? && connect.value.getCase(t.caseId).Failed? ==>
                    r == Error(connect.value.getCase(t.caseId).detail))
    ensures r.CaseRecord? <==>
              && connect.Done?
              && connect.value.query(CaseQuery(caseNumber)).Done?
              && TriageOf(connect.value.query(CaseQuery(caseNumber)).value).Unique?
              && connect.value.getCase(TriageOf(connect.value.query(CaseQuery(caseNumber)).value).caseId).Done?
    ensures r.CaseRecord? ==>
              var q := connect.value.query(CaseQuery(caseNumber)).value;
              r.fields == connect.value.getCase(q.recordIds[0]).value
  {
    match connect
    case Failed(d) => Error(d)
    case Done(sf) =>
      match sf.query(CaseQuery(caseNumber))
      case Failed(d) => Error(d)
      case Done(q) =>
        match TriageOf(q)
        case NoCase => Error(NotFoundMessage(caseNumber))
        case ManyCases => Error(MultipleMessage(caseNumber))
        case IndexError => Error(IndexErrorText)
        case Unique(id) =>
          match sf.getCase(id)
          case Failed(d) => Error(d)
          case Done(rec) => CaseRecord(rec)
  }

  /** The query's `totalSize` decides the lookup errors: 0 gives "not
      found", more than one gives "Multiple cases found", both naming the
      case number. */
  lemma LookupErrors(sf: Client, caseNumber: string)
    requires sf.query(CaseQuery(caseNumber)).Done?
    ensures sf.query(CaseQuery(caseNumber)).value.totalSize == 0 ==>
              GetCase(Done(sf), caseNumber) == Error(NotFoundMessage(caseNumber))
    ensures sf.query(CaseQuery(caseNumber)).value.totalSize > 1 ==>
              GetCase(Done(sf), caseNumber) == Error(MultipleMessage(caseNumber))
  {
  }
}

=== FILE: inbound.dfy ===
/** `receive_from_twilio` (`twilio_handler.py`): the caller's media-stream
    frames and what each does to the session. */
module InboundRelay {
  import opened Common
  import opened Session

  /** A parsed Twilio frame. `timestamp` is the frame's timestamp already
      read as an integer; the start frame's ids are `None` when absent. */
  datatype TwilioFrame =
    | MediaFrame(timestamp: int, payload: string)
    | StartFrame(startStreamSid: Option<string>, startCallSid: Option<string>)
    | MarkFrame
    | OtherFrame

  /** A `media` frame: forwarded to the AI engine while its socket is open,
      dropped otherwise. */
  function OnMedia(s: State, timestamp: int, payload: string, aiOpen: bool): Step {
    if aiOpen then Step(s.(latestMediaTimestamp := timestamp), [ToOpenAi(AudioAppend(payload))])
    else Step(s, [])
  }

  /** A `start` frame: bind the stream and call ids and forget any response
      in progress; the mark queue and the log are kept. */
  function OnStart(s: State, streamSid: Option<string>, callSid: Option<string>): State {
    s.(streamSid := streamSid, callSid := callSid, responseStart := None,
       latestMediaTimestamp := 0, lastAssistantItem := None)
  }

  /** A `mark` frame: the caller has played a part; drop the oldest queued
      mark, if any. */
  function OnMark(s: State): State {
    if |s.markQueue| > 0 then s.(markQueue := s.markQueue[1..]) else s
  }

  /** One frame from the caller; `aiOpen` says whether the AI engine's
      socket is open when the frame arrives. */
  function OnTwilio(s: State, f: TwilioFrame, aiOpen: bool): (r: Step)
    ensures !f.MediaFrame? ==> r.out == []
    ensures r.state.history == s.history && r.state.relayAlive == s.relayAlive
  {
    match f
    case MediaFrame(ts, payload) => OnMedia(s, ts, payload, aiOpen)
    case StartFrame(sid, cid) => Step(OnStart(s, sid, cid), [])
    case MarkFrame => Step(OnMark(s), [])
    case OtherFrame => Step(s, [])
  }

  /** What each caller frame leaves alone. A media frame sends exactly one
      message while the AI socket is open and none while it is closed, and
      changes nothing but the timestamp; a mark frame changes nothing but
      the mark queue, and nothing at all when the queue is empty; any other
      frame is ignored. */
  lemma FrameConditions(s: State, f: TwilioFrame, aiOpen: bool)
    ensures var r := OnTwilio(s, f, aiOpen);
            && (f.MediaFrame? ==>
                  && |r.out| == (if aiOpen then 1 else 0)
                  && r.state.(latestMediaTimestamp := s.latestMediaTimestamp) == s)
            && (f.MarkFrame? ==> r.state.(markQueue := s.markQueue) == s)
            && (f.MarkFrame? && |s.markQueue| == 0 ==> r.state == s)
            && (f.OtherFrame? ==> r == Step(s, []))
  {
  }

  /** A start frame binds both ids and forgets the response in progress:
      no start, timestamp 0, no assistant item. The mark queue, the log and
      the relay are kept and nothing is sent. */
  lemma StartFrameEffect(s: State, streamSid: Option<string>, callSid: Option<string>, aiOpen: bool)
    ensures var r := OnTwilio(s, StartFrame(streamSid, callSid), aiOpen);
            && r.out == []
            && r.state.streamSid == streamSid && r.state.callSid == callSid
            && r.state.responseStart.None? && r.state.latestMediaTimestamp == 0 && r.state.lastAssistantItem.None?
            && r.state.markQueue == s.markQueue && r.state.history == s.history && r.state.relayAlive == s.relayAlive
  {
  }

  /** Every caller frame keeps the session invariant. */
  lemma OnTwilioValid(s: State, f: TwilioFrame, aiOpen: bool)
    requires Valid(s)
    ensures Valid(OnTwilio(s, f, aiOpen).state)
  {
    if f.MarkFrame? && |s.markQueue| > 0 {
      var q := OnMark(s).markQueue;
      assert forall i :: 0 <= i < |q| ==> q[i] == s.markQueue[i + 1];
    }
  }

  /** A mark frame acknowledges exactly one queued mark, the oldest: the
      queue shrinks by one when it was non-empty and is left alone when
      empty, and a second acknowledgement drops the next one in line. */
  lemma MarksLeaveInOrder(s: State)
    ensures |s.markQueue| >= 1 ==> |OnMark(s).markQueue| == |s.markQueue| - 1
    ensures |s.markQueue| >= 2 ==> OnMark(OnMark(s)).markQueue == s.markQueue[2..]
    ensures |s.markQueue| == 0 ==> OnMark(s) == s
  {
    if |s.markQueue| >= 2 {
      assert s.markQueue[1..][1..] == s.markQueue[2..];
    }
  }
}

=== FILE: json.dfy ===
/** Parsed JSON values as Python's `json` module produces them: objects are
    insertion-ordered dicts, and a number with a fraction or an exponent is
    a `float` (its exact decimal value, as a real). Text encoding and decoding are not part of
    this model; where the system parses text, the parser is a parameter. */
module Json {
  import opened Common
  import Dict

  datatype Json =
    | Null
    | Bool(b: bool)
    | Int(i: int)
    | Float(x: real)
    | Str(s: string)
    | Arr(items: seq<Json>)
    | Obj(fields: Dict.Dict<Json>)

  /** What a JSON parser makes of a text: a value, or an error detail
      (`str(e)` of the exception `json.loads` raises). */
  datatype ParseResult = Parsed(value: Json) | Malformed(detail: string)

  /** An optional string as JSON: `None` becomes `null`. */
  function OptionalStr(o: Option<string>): (r: Json)
    ensures o.None? <==> r == Null
    ensures o.Some? ==> r == Str(o.value)
  {
    match o
    case None => Null
    case Some(s) => Str(s)
  }

  /** Python's name for the type of a parsed value (`type(v).__name__`). */
  function TypeName(v: Json): string {
    match v
    case Null => "NoneType"
    case Bool(_) => "bool"
    case Int(_) => "int"
    case Float(_) => "float"
    case Str(_) => "str"
    case Arr(_) => "list"
    case Obj(_) => "dict"
  }
}

=== FILE: orchestrator.dfy ===
/** `handle_media_stream` (`twilio_handler.py`) as one sequence of events:
    frames from the caller (`receive_from_twilio`) and server events from
    the AI engine (`send_to_twilio`), interleaved as they arrive. Once the
    relay of AI events has ended, later AI events are never read. */
module Orchestrator {
  import opened Common
  import opened Json
  import opened Registry
  import opened Session
  import opened AiEvents
  import InboundRelay
  import AudioOut
  import BargeIn
  import ConversationLog
  import FunctionCalls

  /** An event of the call. `aiOpen` says whether the AI engine's socket was
      open when the caller's frame arrived. */
  datatype Event =
    | FromTwilio(frame: InboundRelay.TwilioFrame, aiOpen: bool)
    | FromAi(event: AiEvent)

  /** One AI server event, in the order `send_to_twilio` tests the types. */
  function OnAi(s: State, e: AiEvent, fm: FunctionMap, parse: string -> ParseResult): Step {
    match e
    case AudioDelta(delta, itemId) => AudioOut.OnAudioDelta(s, delta, itemId)
    case ResponseDone(output) =>
      var logged := s.(history := ConversationLog.LogResponse(s.history, output));
      FunctionCalls.RunCalls(logged, fm, parse, output)
    case TranscriptionDelta(_) => Step(s, [])
    case TranscriptionCompleted(t) => Step(s.(history := ConversationLog.LogUserTranscript(s.history, t)), [])
    case SpeechStarted => BargeIn.OnSpeechStarted(s)
    case OtherEvent => Step(s, [])
  }

  function OnEvent(s: State, e: Event, fm: FunctionMap, parse: string -> ParseResult): Step {
    match e
    case FromTwilio(f, open) => InboundRelay.OnTwilio(s, f, open)
    case FromAi(a) => if s.relayAlive then OnAi(s, a, fm, parse) else Step(s, [])
  }

  /** The whole call: every event in turn, the messages in the order sent. */
  function Run(s: State, events: seq<Event>, fm: FunctionMap, parse: string -> ParseResult): Step
    decreases |events|
  {
    if |events| == 0 then Step(s, [])
    else
      var first := OnEvent(s, events[0], fm, parse);
      var rest := Run(first.state, events[1..], fm, parse);
      Step(rest.state, first.out + rest.out)
  }

  // ---------------------------------------------------------------------
  // The session invariant

  lemma OnEventValid(s: State, e: Event, fm: FunctionMap, parse: string -> ParseResult)
    requires Valid(s)
    ensures Valid(OnEvent(s, e, fm, parse).state)
  {
    match e
    case FromTwilio(f, open) => InboundRelay.OnTwilioValid(s, f, open);
    case FromAi(a) =>
      if s.relayAlive {
        match a
        case AudioDelta(delta, itemId) => AudioOut.AudioDeltaValid(s, delta, itemId);
        case ResponseDone(output) =>
          var logged := s.(history := ConversationLog.LogResponse(s.history, output));
          FunctionCalls.CallsAnsweredInOrder(logged, fm, parse, output);
        case SpeechStarted => BargeIn.SpeechStartedValid(s);
        case _ =>
      }
  }

  /** Every state a call reaches satisfies the session invariant. */
  lemma {:induction false} RunValid(s: State, events: seq<Event>, fm: FunctionMap, parse: string -> ParseResult)
    requires Valid(s)
    ensures Valid(Run(s, events, fm, parse).state)
    decreases |events|
  {
    if |events| > 0 {
      OnEventValid(s, events[0], fm, parse);
      RunValid(OnEvent(s, events[0], fm, parse).state, events[1..], fm, parse);
    }
  }

  /** A `start` frame forgets the response in progress: speech right after
      it truncates nothing and clears nothing, though the marks queued for
      the previous stream and the log are kept. */
  lemma StartForgetsResponse(s: State, sid: Option<string>, cid: Option<string>, open: bool,
                             fm: FunctionMap, parse: string -> ParseResult)
    ensures var t := OnEvent(s, FromTwilio(InboundRelay.StartFrame(sid, cid), open), fm, parse);
            && t.out == []
            && t.state.streamSid == sid && t.state.callSid == cid
            && t.state.markQueue == s.markQueue && t.state.history == s.history
            && OnEvent(t.state, FromAi(SpeechStarted), fm, parse) == Step(t.state, [])
  {
  }

  // ---------------------------------------------------------------------
  // The conversation log

  /** Reference definition: what one event says, when the relay is alive. */
  function Said(e: Event): seq<Turn> {
    match e
    case FromAi(ResponseDone(output)) => ConversationLog.ResponseTurns(output)
    case FromAi(TranscriptionCompleted(t)) => if Truthy(t) then [User(t.value)] else []
    case _ => []
  }

  function SaidAll(events: seq<Event>): seq<Turn>
    decreases |events|
  {
    if |events| == 0 then [] else Said(events[0]) + SaidAll(events[1..])
  }

  lemma OnEventLog(s: State, e: Event, fm: FunctionMap, parse: string -> ParseResult)
    ensures var r := OnEvent(s, e, fm, parse).state;
            && (s.relayAlive ==> r.history == s.history + Said(e))
            && (!s.relayAlive ==> r.history == s.history && !r.relayAlive)
  {
    match e
    case FromTwilio(f, open) =>
    case FromAi(a) =>
      if s.relayAlive {
        match a
        case AudioDelta(delta, itemId) =>
          if delta.Some? {
            AudioOut.AudioDeltaEffect(s, delta.value, itemId);
          }
        case ResponseDone(output) =>
          var logged := s.(history := ConversationLog.LogResponse(s.history, output));
          ConversationLog.LogResponseAppends(s.history, output);
          FunctionCalls.CallsAnsweredInOrder(logged, fm, parse, output);
        case TranscriptionCompleted(t) =>
        case SpeechStarted =>
        case _ =>
      }
  }

  /** Once the relay has ended, AI events change nothing and send nothing:
      `send_to_twilio` no longer reads them. */
  lemma DeadRelayIgnoresAi(s: State, a: AiEvent, fm: FunctionMap, parse: string -> ParseResult)
    requires !s.relayAlive
    ensures OnEvent(s, FromAi(a), fm, parse) == Step(s, [])
  {
  }

  /** Within one `response.done`, the agent's transcripts are logged before
      its function calls run: the calls see the log with this response's
      transcripts already appended (and `create_case` gets that log). */
  lemma ResponseLoggedBeforeCalls(s: State, output: seq<OutputItem>, fm: FunctionMap, parse: string -> ParseResult)
    requires s.relayAlive
    ensures OnEvent(s, FromAi(ResponseDone(output)), fm, parse) ==
              FunctionCalls.RunCalls(s.(history := s.history + ConversationLog.ResponseTurns(output)), fm, parse, output)
  {
    ConversationLog.LogResponseAppends(s.history, output);
  }

  /** The log only grows: every event keeps what was logged before. */
  lemma {:induction false} HistoryOnlyGrows(s: State, events: seq<Event>, fm: FunctionMap, parse: string -> ParseResult)
    ensures var h := Run(s, events, fm, parse).state.history;
            |s.history| <= |h| && h[..|s.history|] == s.history
    decreases |events|
  {
    if |events| > 0 {
      var mid := OnEvent(s, events[0], fm, parse).state;
      OnEventLog(s, events[0], fm, parse);
      HistoryOnlyGrows(mid, events[1..], fm, parse);
      var h := Run(s, events, fm, parse).state.history;
      assert h[..|mid.history|][..|s.history|] == h[..|s.history|];
    }
  }

  /** The run's final state is the rest of the run's, from the state the
      first event leaves. */
  lemma RunFirst(s: State, events: seq<Event>, fm: FunctionMap, parse: string -> ParseResult)
    requires |events| > 0
    ensures Run(s, events, fm, parse).state == Run(OnEvent(s, events[0], fm, parse).state, events[1..], fm, parse).state
  {
  }

  /** The state the first event leaves, with what it did to the log. */
  lemma LogFirst(s: State, events: seq<Event>, fm: FunctionMap, parse: string -> ParseResult) returns (mid: State)
    requires |events| > 0
    ensures Run(s, events, fm, parse).state == Run(mid, events[1..], fm, parse).state
    ensures s.relayAlive ==> mid.history == s.history + Said(events[0])
    ensures !s.relayAlive ==> !mid.relayAlive
  {
    mid := OnEvent(s, events[0], fm, parse).state;
    OnEventLog(s, events[0], fm, parse);
  }

  /** A call whose relay never failed has logged exactly what was said: the
      agent's spoken transcripts and the caller's final transcripts, in the
      order the events arrived. */
  lemma {:induction false} HistoryIsWhatWasSaid(s: State, events: seq<Event>, fm: FunctionMap, parse: string -> ParseResult)
    requires Run(s, events, fm, parse).state.relayAlive
    ensures s.relayAlive
    ensures Run(s, events, fm, parse).state.history == s.history + SaidAll(events)
    decreases |events|
  {
    if |events| > 0 {
      var mid := LogFirst(s, events, fm, parse);
      HistoryIsWhatWasSaid(mid, events[1..], fm, parse);
      assert s.history + Said(events[0]) + SaidAll(events[1..]) == s.history + SaidAll(events);
    } else {
      assert Run(s, events, fm, parse).state == s;
    }
  }

  // ---------------------------------------------------------------------
  // Caller audio forwarding

  /** The audio the AI engine receives, in order. */
  function Appended(out: seq<Outbound>): seq<string>
    decreases |out|
  {
    if |out| == 0 then []
    else (if out[0].ToOpenAi? && out[0].ai.AudioAppend? then [out[0].ai.audio] else []) + Appended(out[1..])
  }

  lemma {:induction false} AppendedConcat(a: seq<Outbound>, b: seq<Outbound>)
    ensures Appended(a + b) == Appended(a) + Appended(b)
    decreases |a|
  {
    if |a| > 0 {
      AppendedConcat(a[1..], b);
      assert (a + b)[1..] == a[1..] + b;
    } else {
      assert a + b == b;
    }
  }

  /** Reference definition: the payloads of the caller's media frames that
      arrived while the AI engine's socket was open. */
  function Forwarded(events: seq<Event>): seq<string>
    decreases |events|
  {
    if |events| == 0 then []
    else
      var e := events[0];
      (if e.FromTwilio? && e.frame.MediaFrame? && e.aiOpen then [e.frame.payload] else []) + Forwarded(events[1..])
  }

  lemma {:induction false} NoAudioAppend(out: seq<Outbound>)
    requires forall i :: 0 <= i < |out| ==> !(out[i].ToOpenAi? && out[i].ai.AudioAppend?)
    ensures Appended(out) == []
    decreases |out|
  {
    if |out| > 0 {
      NoAudioAppend(out[1..]);
    }
  }

  /** Only function-call results and `response.create` requests. */
  predicate OnlyAnswers(out: seq<Outbound>) {
    forall i :: 0 <= i < |out| ==> out[i].ToOpenAi? && (out[i].ai.FunctionCallOutput? || out[i].ai == ResponseCreate)
  }

  /** The calls of a response send the AI engine their answers and nothing
      else. */
  lemma {:induction false} CallsOnlyAnswer(s: State, fm: FunctionMap, parse: string -> ParseResult, items: seq<OutputItem>)
    ensures OnlyAnswers(FunctionCalls.RunCalls(s, fm, parse, items).out)
    decreases |items|
  {
    if |items| > 0 && s.relayAlive {
      var first := FunctionCalls.HandleItem(s, fm, parse, items[0]);
      var rest := FunctionCalls.RunCalls(first.state, fm, parse, items[1..]);
      CallsOnlyAnswer(first.state, fm, parse, items[1..]);
      var out := first.out + rest.out;
      assert out == FunctionCalls.RunCalls(s, fm, parse, items).out;
      if first.out != [] {
        var env :| first.out == FunctionCalls.Answer(items[0].callId, env);
        forall i | 0 <= i < |out|
          ensures out[i].ToOpenAi? && (out[i].ai.FunctionCallOutput? || out[i].ai == ResponseCreate)
        {
          if i >= 2 {
            assert out[i] == rest.out[i - 2];
          }
        }
      } else {
        assert out == rest.out;
      }
    }
  }

  lemma OnEventForwards(s: State, e: Event, fm: FunctionMap, parse: string -> ParseResult)
    ensures Appended(OnEvent(s, e, fm, parse).out) == Forwarded([e])
  {
    assert Forwarded([e][1..]) == [];
    match e
    case FromTwilio(f, open) =>
    case FromAi(a) =>
      if s.relayAlive {
        match a
        case AudioDelta(delta, itemId) =>
          if delta.Some? {
            var r := OnAi(s, a, fm, parse);
            if Truthy(s.streamSid) {
              assert r.out == [ToCaller(Media(s.streamSid, delta.value)), ToCaller(Mark(s.streamSid.value, ResponsePart))];
              assert r.out[1..][1..] == [];
              assert Appended(r.out[1..]) == [];
            } else {
              assert r.out == [ToCaller(Media(s.streamSid, delta.value))];
            }
          }
        case ResponseDone(output) =>
          var logged := s.(history := ConversationLog.LogResponse(s.history, output));
          CallsOnlyAnswer(logged, fm, parse, output);
          var r := OnAi(s, a, fm, parse);
          assert r == FunctionCalls.RunCalls(logged, fm, parse, output);
          NoAudioAppend(r.out);
        case SpeechStarted =>
          if BargeIn.Interrupts(s) {
            BargeIn.InterruptEffect(s);
            NoAudioAppend(OnAi(s, a, fm, parse).out);
          } else {
            BargeIn.QuietWhenNothingPlays(s);
          }
        case _ =>
      }
  }

  /** Every media frame that arrives while the AI engine's socket is open is
      forwarded, in order, and no other audio is sent to the engine. */
  lemma {:induction false} CallerAudioForwarded(s: State, events: seq<Event>, fm: FunctionMap, parse: string -> ParseResult)
    ensures Appended(Run(s, events, fm, parse).out) == Forwarded(events)
    decreases |events|
  {
    if |events| > 0 {
      var first := OnEvent(s, events[0], fm, parse);
      var rest := Run(first.state, events[1..], fm, parse);
      OnEventForwards(s, events[0], fm, parse);
      CallerAudioForwarded(first.state, events[1..], fm, parse);
      AppendedConcat(first.out, rest.out);
      assert Forwarded(events) == Forwarded([events[0]]) + Forwarded(events[1..]);
    }
  }

  // ---------------------------------------------------------------------
  // The caller's clock

  /** The latest media timestamp after one event, as the caller's frames
      alone decide it: a media frame read while the AI socket is open sets
      it, a start frame resets it to 0, and nothing else moves it. */
  function HeardAfter(t: int, e: Event): int {
    match e
    case FromTwilio(MediaFrame(ts, _), true) => ts
    case FromTwilio(StartFrame(_, _), _) => 0
    case _ => t
  }

  function HeardUntil(t: int, events: seq<Event>): int
    decreases |events|
  {
    if |events| == 0 then t else HeardUntil(HeardAfter(t, events[0]), events[1..])
  }

  lemma OnEventTimestamp(s: State, e: Event, fm: FunctionMap, parse: string -> ParseResult)
    ensures OnEvent(s, e, fm, parse).state.latestMediaTimestamp == HeardAfter(s.latestMediaTimestamp, e)
  {
    match e
    case FromTwilio(f, open) =>
    case FromAi(a) =>
      if s.relayAlive {
        match a
        case AudioDelta(delta, itemId) =>
          if delta.Some? {
            AudioOut.AudioDeltaEffect(s, delta.value, itemId);
          }
        case ResponseDone(output) =>
          var logged := s.(history := ConversationLog.LogResponse(s.history, output));
          FunctionCalls.CallsAnsweredInOrder(logged, fm, parse, output);
        case SpeechStarted =>
          if BargeIn.Interrupts(s) {
            BargeIn.InterruptEffect(s);
          } else {
            BargeIn.QuietWhenNothingPlays(s);
          }
        case _ =>
      }
  }

  /** The timestamp a truncation is measured against is always the one the
      caller's frames set: after any run it is the timestamp of the last
      media frame read with the AI socket open since the last start frame
      (or the earlier value), whatever the AI engine sent meanwhile. Media
      dropped while the socket was closed never move it. */
  lemma {:induction false} TimestampIsLastHeard(s: State, events: seq<Event>, fm: FunctionMap, parse: string -> ParseResult)
    ensures Run(s, events, fm, parse).state.latestMediaTimestamp == HeardUntil(s.latestMediaTimestamp, events)
    decreases |events|
  {
    if |events| > 0 {
      var mid := OnEvent(s, events[0], fm, parse).state;
      RunFirst(s, events, fm, parse);
      OnEventTimestamp(s, events[0], fm, parse);
      TimestampIsLastHeard(mid, events[1..], fm, parse);
    }
  }

  // ---------------------------------------------------------------------
  // Truncation points

  /** The response start is never ahead of the latest media timestamp, and
      the timestamp is not negative. */
  predicate StartNotAhead(s: State) {
    && 0 <= s.latestMediaTimestamp
    && (s.responseStart.Some? ==> s.responseStart.value <= s.latestMediaTimestamp)
  }

  /** Twilio's clock: the media frames' timestamps, from `t` on, never
      decrease. */
  predicate ClockFrom(t: int, events: seq<Event>)
    decreases |events|
  {
    if |events| == 0 then true
    else
      var e := events[0];
      if e.FromTwilio? && e.frame.MediaFrame? then t <= e.frame.timestamp && ClockFrom(e.frame.timestamp, events[1..])
      else ClockFrom(t, events[1..])
  }

  predicate TruncationsNonNegative(out: seq<Outbound>) {
    forall i :: 0 <= i < |out| && out[i].ToOpenAi? && out[i].ai.Truncate? ==> out[i].ai.audioEndMs >= 0
  }

  /** The clock reading after an event. */
  function ClockAfter(t: int, e: Event): int {
    if e.FromTwilio? && e.frame.MediaFrame? then e.frame.timestamp else t
  }

  lemma OnEventClock(s: State, t: int, e: Event, fm: FunctionMap, parse: string -> ParseResult)
    requires StartNotAhead(s) && s.latestMediaTimestamp <= t
    requires e.FromTwilio? && e.frame.MediaFrame? ==> t <= e.frame.timestamp
    ensures var r := OnEvent(s, e, fm, parse);
            && StartNotAhead(r.state) && r.state.latestMediaTimestamp <= ClockAfter(t, e)
            && TruncationsNonNegative(r.out)
  {
    match e
    case FromTwilio(f, open) =>
    case FromAi(a) =>
      if s.relayAlive {
        match a
        case AudioDelta(delta, itemId) =>
          if delta.Some? {
            AudioOut.AudioDeltaEffect(s, delta.value, itemId);
            var r := OnAi(s, a, fm, parse);
            if Truthy(s.streamSid) {
              assert r.out == [ToCaller(Media(s.streamSid, delta.value)), ToCaller(Mark(s.streamSid.value, ResponsePart))];
            } else {
              assert r.out == [ToCaller(Media(s.streamSid, delta.value))];
            }
          }
        case ResponseDone(output) =>
          var logged := s.(history := ConversationLog.LogResponse(s.history, output));
          CallsOnlyAnswer(logged, fm, parse, output);
          FunctionCalls.CallsAnsweredInOrder(logged, fm, parse, output);
          var r := OnAi(s, a, fm, parse);
          assert r == FunctionCalls.RunCalls(logged, fm, parse, output);
        case SpeechStarted =>
          if BargeIn.Interrupts(s) {
            BargeIn.InterruptEffect(s);
          } else {
            BargeIn.QuietWhenNothingPlays(s);
          }
        case _ =>
      }
  }

  /** While Twilio's media timestamps do not go backwards, every truncation
      the handler sends cuts at a non-negative offset. */
  lemma {:induction false} TruncationNeverNegative(s: State, t: int, events: seq<Event>, fm: FunctionMap, parse: string -> ParseResult)
    requires StartNotAhead(s) && s.latestMediaTimestamp <= t
    requires ClockFrom(t, events)
    ensures TruncationsNonNegative(Run(s, events, fm, parse).out)
    decreases |events|
  {
    if |events| > 0 {
      var first := OnEvent(s, events[0], fm, parse);
      var rest := Run(first.state, events[1..], fm, parse);
      OnEventClock(s, t, events[0], fm, parse);
      TruncationNeverNegative(first.state, ClockAfter(t, events[0]), events[1..], fm, parse);
      var out := first.out + rest.out;
      forall i | 0 <= i < |out| && out[i].ToOpenAi? && out[i].ai.Truncate?
        ensures out[i].ai.audioEndMs >= 0
      {
        if i >= |first.out| {
          assert out[i] == rest.out[i - |first.out|];
        }
      }
    }
  }
}

=== FILE: registry.dfy ===
/** The tool registry (`FunctionCallManager`): a name-to-tool map, the
    envelope `call_function` wraps every outcome in, Python's keyword
    binding of `func(**args)`, and the JSON-schema tool definitions the
    session announces to the AI engine. */
module Registry {
  import opened Common
  import Dict
  import opened Json

  /** A Python type annotation, as far as `get_params` distinguishes it. */
  datatype TypeHint =
    | IntHint
    | FloatHint
    | BoolHint
    | StrHint
    | UnionHint(members: seq<TypeHint>)   // `float | None`, `str | None`, ...
    | ClassHint(className: string)        // e.g. `EmailContentModel`
    | Unannotated

  /** One parameter of a tool's Python signature. */
  datatype Param = Param(name: string, hint: TypeHint, default: Option<Json>)

  /** What running a tool's body does: returns a value or raises. */
  datatype Outcome = Returned(value: Json) | Raised(detail: string)

  /** A plain Python function: the module defining it (`__module__`, e.g.
      `tools.get_case`), its signature, its docstring and its body, which
      receives every parameter bound to a value. */
  datatype Tool = Tool(moduleName: string, params: seq<Param>, doc: Option<string>,
                       body: map<string, Json> -> Outcome)

  /** A registry value: something callable, or an object without `__call__`. */
  datatype Entry = Callable(tool: Tool) | NotCallable

  type FunctionMap = Dict.Dict<Entry>

  /** The one-key result of `call_function`: `{"result": ...}` or `{"error": ...}`. */
  datatype Envelope = Success(result: Json) | Failure(error: string)

  function EnvelopeJson(e: Envelope): Json {
    match e
    case Success(v) => Obj([("result", v)])
    case Failure(m) => Obj([("error", Str(m))])
  }

  function NotFoundMessage(name: string): string {
    "Function '" + name + "' not found."
  }

  function NotCallableMessage(name: string): string {
    "Function '" + name + "' is not callable."
  }

  function RaisedPrefix(name: string): string {
    "Function '" + name + "' raised: "
  }

  const InvalidArgumentsPrefix := "Invalid arguments JSON: "

  // ---------------------------------------------------------------------
  // Keyword binding of `func(**args)`

  /** The `TypeError`s Python raises when `func(**args)` cannot bind. */
  datatype BindError =
    | NotAMapping(typeName: string)
    | UnexpectedKeyword(key: string)
    | MissingArguments(names: seq<string>)

  function ParamNames(params: seq<Param>): seq<string> {
    seq(|params|, i requires 0 <= i < |params| => params[i].name)
  }

  predicate DistinctNames(params: seq<Param>) {
    forall i, j :: 0 <= i < j < |params| ==> params[i].name != params[j].name
  }

  /** The first argument key that names no parameter. */
  function FirstUnexpected(keys: seq<string>, names: seq<string>): (r: Option<string>)
    ensures r.Some? ==> r.value in keys && r.value !in names
    ensures r.None? <==> forall i :: 0 <= i < |keys| ==> keys[i] in names
  {
    if |keys| == 0 then None
    else if keys[0] !in names then Some(keys[0])
    else FirstUnexpected(keys[1..], names)
  }

  /** The parameters without a default that the arguments leave unbound,
      in signature order. */
  function MissingNames(params: seq<Param>, keys: seq<string>): (r: seq<string>)
    ensures forall n :: n in r <==> exists i :: 0 <= i < |params| && params[i].default.None? && params[i].name == n && n !in keys
  {
    if |params| == 0 then []
    else
      var rest := MissingNames(params[1..], keys);
      assert forall i :: 1 <= i < |params| ==> params[i] == params[1..][i - 1];
      if params[0].default.None? && params[0].name !in keys then [params[0].name] + rest else rest
  }

  /** Every parameter bound to its argument or, failing that, its default. */
  function BindValues(params: seq<Param>, fields: Dict.Dict<Json>): (r: map<string, Json>)
    requires forall i :: 0 <= i < |params| ==> params[i].name in Dict.Keys(fields) || params[i].default.Some?
    ensures forall n :: n in r <==> n in ParamNames(params)
    ensures forall i :: 0 <= i < |params| ==> params[i].name in r
  {
    if |params| == 0 then map[]
    else
      var p := params[0];
      var v := if p.name in Dict.Keys(fields) then Dict.Get(fields, p.name).value else p.default.value;
      var rest := BindValues(params[1..], fields);
      assert ParamNames(params) == [p.name] + ParamNames(params[1..]);
      rest[p.name := v]
  }

  /** Python's binding of `func(**args)` for a function with the given
      positional-or-keyword parameters: a non-mapping is refused first, then
      the first unknown keyword, then every missing required parameter. */
  function Bind(params: seq<Param>, args: Json): (r: Result<map<string, Json>, BindError>)
    ensures !args.Obj? <==> r == Err(NotAMapping(TypeName(args)))
    ensures r.Ok? <==> (&& args.Obj?
                        && (forall i :: 0 <= i < |args.fields| ==> args.fields[i].0 in ParamNames(params))
                        && (forall i :: 0 <= i < |params| ==> params[i].name in Dict.Keys(args.fields) || params[i].default.Some?))
    ensures r.Ok? ==> forall n :: n in r.value <==> n in ParamNames(params)
    ensures args.Obj? && (exists i :: 0 <= i < |args.fields| && args.fields[i].0 !in ParamNames(params)) ==>
              r.Err? && r.error.UnexpectedKeyword?
    ensures r.Err? && r.error.UnexpectedKeyword? ==>
              r.error.key in Dict.Keys(args.fields) && r.error.key !in ParamNames(params)
  {
    if !args.Obj? then Err(NotAMapping(TypeName(args)))
    else
      var keys := Dict.Keys(args.fields);
      assert forall i :: 0 <= i < |args.fields| ==> keys[i] == args.fields[i].0;
      match FirstUnexpected(keys, ParamNames(params))
      case Some(k) => Err(UnexpectedKeyword(k))
      case None =>
        var missing := MissingNames(params, keys);
        if |missing| > 0 then
          assert missing[0] in missing;
          Err(MissingArguments(missing))
        else
          assert forall i :: 0 <= i < |params| ==> params[i].name in keys || params[i].default.Some? by {
            forall i | 0 <= i < |params| && params[i].default.None?
              ensures params[i].name in keys
            {
              var n := params[i].name;
              assert n !in missing;
            }
          }
          Ok(BindValues(params, args.fields))
  }

  /** A bound parameter carries the caller's argument when one was given and
      its declared default otherwise. */
  lemma {:induction false} BindValuesAgree(params: seq<Param>, fields: Dict.Dict<Json>, i: nat)
    requires forall j :: 0 <= j < |params| ==> params[j].name in Dict.Keys(fields) || params[j].default.Some?
    requires DistinctNames(params)
    requires i < |params|
    ensures params[i].name in Dict.Keys(fields) ==> BindValues(params, fields)[params[i].name] == Dict.Get(fields, params[i].name).value
    ensures params[i].name !in Dict.Keys(fields) ==> BindValues(params, fields)[params[i].name] == params[i].default.value
  {
    if i > 0 {
      assert DistinctNames(params[1..]) by {
        forall a, b | 0 <= a < b < |params[1..]| ensures params[1..][a].name != params[1..][b].name {
          assert params[1..][a] == params[a + 1] && params[1..][b] == params[b + 1];
        }
      }
      BindValuesAgree(params[1..], fields, i - 1);
      assert params[1..][i - 1] == params[i];
      assert params[0].name != params[i].name;
    }
  }

  function QuotedList(names: seq<string>): string
    decreases |names|
  {
    if |names| == 0 then ""
    else if |names| == 1 then "'" + names[0] + "'"
    else if |names| == 2 then "'" + names[0] + "' and '" + names[1] + "'"
    else "'" + names[0] + "', " + QuotedListTail(names[1..])
  }

  function QuotedListTail(names: seq<string>): string
    requires |names| >= 2
    decreases |names|
  {
    if |names| == 2 then "'" + names[0] + "', and '" + names[1] + "'"
    else "'" + names[0] + "', " + QuotedListTail(names[1..])
  }

  /** How CPython names a function in the `**` error: qualified by its
      module unless that is `builtins`. */
  function QualifiedName(moduleName: string, fname: string): string {
    if moduleName == "builtins" then fname else moduleName + "." + fname
  }

  /** `str(e)` of the `TypeError` a failed binding raises. The `**` error
      names the function with its module; the keyword errors use the bare
      name. */
  function BindErrorText(moduleName: string, fname: string, e: BindError): string {
    match e
    case NotAMapping(t) => QualifiedName(moduleName, fname) + "() argument after ** must be a mapping, not " + t
    case UnexpectedKeyword(k) => fname + "() got an unexpected keyword argument '" + k + "'"
    case MissingArguments(ns) =>
      fname + "() missing " + IntText(|ns|) + " required positional argument"
      + (if |ns| == 1 then "" else "s") + ": " + QuotedList(ns)
  }

  // ---------------------------------------------------------------------
  // call_function

  /** Runs a registry entry on parsed arguments (the `try` block of
      `call_function`): anything the call raises becomes an error envelope. */
  function Invoke(name: string, entry: Entry, args: Json): (r: Envelope)
    ensures entry.NotCallable? ==> r == Failure(NotCallableMessage(name))
    ensures r.Success? <==>
              entry.Callable? && Bind(entry.tool.params, args).Ok?
              && entry.tool.body(Bind(entry.tool.params, args).value).Returned?
    ensures r.Success? ==> r.result == entry.tool.body(Bind(entry.tool.params, args).value).value
    ensures entry.Callable? && r.Failure? ==> StartsWith(r.error, RaisedPrefix(name))
  {
    match entry
    case NotCallable => Failure(NotCallableMessage(name))
    case Callable(tool) =>
      match Bind(tool.params, args)
      case Err(e) =>
        StartsWithConcat(RaisedPrefix(name), BindErrorText(tool.moduleName, name, e));
        Failure(RaisedPrefix(name) + BindErrorText(tool.moduleName, name, e))
      case Ok(bound) =>
        match tool.body(bound)
        case Returned(v) => Success(v)
        case Raised(d) =>
          StartsWithConcat(RaisedPrefix(name), d);
          Failure(RaisedPrefix(name) + d)
  }

  /** `call_function` once its argument text has been parsed to `args`. */
  function CallParsed(fm: FunctionMap, name: string, args: Json): (r: Envelope)
    ensures Dict.Get(fm, name).None? ==> r == Failure(NotFoundMessage(name))
    ensures Dict.Get(fm, name).Some? ==> r == Invoke(name, Dict.Get(fm, name).value, args)
  {
    match Dict.Get(fm, name)
    case None => Failure(NotFoundMessage(name))
    case Some(entry) => Invoke(name, entry, args)
  }

  /** `FunctionCallManager.call_function(name, arguments)`: the name is
      looked up first, then the argument text is parsed (the empty text
      stands for `{}`), then the entry is run. */
  function CallFunction(fm: FunctionMap, name: string, arguments: string, parse: string -> ParseResult): (r: Envelope)
    ensures Dict.Get(fm, name).None? ==> r == Failure(NotFoundMessage(name))
    ensures Dict.Get(fm, name).Some? && arguments == "" ==> r == CallParsed(fm, name, Obj([]))
    ensures Dict.Get(fm, name).Some? && arguments != "" && parse(arguments).Malformed? ==>
              r == Failure(InvalidArgumentsPrefix + parse(arguments).detail)
    ensures Dict.Get(fm, name).Some? && arguments != "" && parse(arguments).Parsed? ==>
              r == CallParsed(fm, name, parse(arguments).value)
  {
    match Dict.Get(fm, name)
    case None => Failure(NotFoundMessage(name))
    case Some(entry) =>
      var parsed := if arguments == "" then Parsed(Obj([])) else parse(arguments);
      match parsed
      case Malformed(d) => Failure(InvalidArgumentsPrefix + d)
      case Parsed(args) => Invoke(name, entry, args)
  }

  /** Every outcome of `call_function` is a JSON object with exactly one
      key, `"result"` for a success and `"error"` for every failure. */
  lemma EnvelopeHasOneKey(fm: FunctionMap, name: string, arguments: string, parse: string -> ParseResult)
    ensures var j := EnvelopeJson(CallFunction(fm, name, arguments, parse));
            j.Obj? && |j.fields| == 1
            && (j.fields[0].0 == "result" <==> CallFunction(fm, name, arguments, parse).Success?)
            && (j.fields[0].0 == "error" <==> CallFunction(fm, name, arguments, parse).Failure?)
  {
  }

  /** Arguments that parse to something other than an object (a list,
      say) fail before the body runs, with the `**` error naming the tool
      by module and name and the type of what was passed. */
  lemma NonObjectArguments(name: string, tool: Tool, args: Json)
    requires !args.Obj?
    ensures Invoke(name, Callable(tool), args) ==
              Failure(RaisedPrefix(name) + QualifiedName(tool.moduleName, name)
                      + "() argument after ** must be a mapping, not " + TypeName(args))
  {
  }

  /** An unknown name is reported without looking at the arguments: the
      outcome is the same whatever text and parser are supplied. */
  lemma UnknownNameIgnoresArguments(fm: FunctionMap, name: string,
                                    a1: string, p1: string -> ParseResult,
                                    a2: string, p2: string -> ParseResult)
    requires name !in Dict.Keys(fm)
    ensures CallFunction(fm, name, a1, p1) == CallFunction(fm, name, a2, p2) == Failure(NotFoundMessage(name))
  {
  }

  /** Unparseable arguments are reported without running any tool: two
      registries with the same names give the same outcome, whatever their
      tools do. */
  lemma MalformedArgumentsRunNoTool(fm1: FunctionMap, fm2: FunctionMap, name: string,
                                    arguments: string, parse: string -> ParseResult)
    requires Dict.Keys(fm1) == Dict.Keys(fm2)
    requires name in Dict.Keys(fm1)
    requires arguments != "" && parse(arguments).Malformed?
    ensures CallFunction(fm1, name, arguments, parse) == CallFunction(fm2, name, arguments, parse)
    ensures StartsWith(CallFunction(fm1, name, arguments, parse).error, InvalidArgumentsPrefix)
  {
    StartsWithConcat(InvalidArgumentsPrefix, parse(arguments).detail);
  }

  /** The session serialises the arguments it has built and `call_function`
      parses them back; when the parser reads the text as `args`, the call
      is the same as handing over `args` directly. */
  lemma CallFunctionOnSerialised(fm: FunctionMap, name: string, text: string,
                                 parse: string -> ParseResult, args: Json)
    requires text != "" && parse(text) == Parsed(args)
    ensures CallFunction(fm, name, text, parse) == CallParsed(fm, name, args)
  {
  }

  /** A call succeeds exactly when the name is registered, the entry is
      callable, the arguments parse and bind, and the body returns. */
  lemma CallFunctionSucceedsIff(fm: FunctionMap, name: string, arguments: string, parse: string -> ParseResult)
    ensures CallFunction(fm, name, arguments, parse).Success? <==>
              var args := if arguments == "" then Parsed(Obj([])) else parse(arguments);
              && name in Dict.Keys(fm)
              && Dict.Get(fm, name).value.Callable?
              && args.Parsed?
              && Bind(Dict.Get(fm, name).value.tool.params, args.value).Ok?
              && Dict.Get(fm, name).value.tool.body(Bind(Dict.Get(fm, name).value.tool.params, args.value).value).Returned?
  {
  }

  // ---------------------------------------------------------------------
  // tool_defs / get_params

  /** The JSON-schema description of one parameter. */
  datatype ParamSchema = ParamSchema(jsonType: string, description: string, default: Option<Json>)

  datatype ObjectSchema = ObjectSchema(kind: string, properties: Dict.Dict<ParamSchema>)

  datatype ToolDef = ToolDef(kind: string, name: string, description: string, parameters: ObjectSchema)

  /** The JSON-schema type of an annotation: only the exact types `int`,
      `float` and `bool` are recognised; everything else, unions included,
      is a string. */
  function SchemaType(h: TypeHint): (r: string)
    ensures r == "integer" <==> h == IntHint
    ensures r == "number" <==> h == FloatHint
    ensures r == "boolean" <==> h == BoolHint
    ensures r == "string" <==> !(h == IntHint || h == FloatHint || h == BoolHint)
  {
    match h
    case IntHint => "integer"
    case FloatHint => "number"
    case BoolHint => "boolean"
    case _ => "string"
  }

  function SchemaOf(p: Param): ParamSchema {
    ParamSchema(SchemaType(p.hint), "", p.default)
  }

  function GetParamsFrom(acc: Dict.Dict<ParamSchema>, params: seq<Param>): Dict.Dict<ParamSchema>
    decreases |params|
  {
    if |params| == 0 then acc
    else
      var acc' := if params[0].name == "self" then acc else Dict.Put(acc, params[0].name, SchemaOf(params[0]));
      GetParamsFrom(acc', params[1..])
  }

  /** `get_params(func)`: one schema per parameter, `self` skipped, in
      signature order. */
  function GetParams(params: seq<Param>): Dict.Dict<ParamSchema> {
    GetParamsFrom([], params)
  }

  /** The parameter names `get_params` reports, in order. */
  function VisibleNames(params: seq<Param>): seq<string> {
    if |params| == 0 then []
    else (if params[0].name == "self" then [] else [params[0].name]) + VisibleNames(params[1..])
  }

  lemma {:induction false} VisibleNamesMembership(params: seq<Param>, n: string)
    ensures n in VisibleNames(params) <==> n != "self" && n in ParamNames(params)
  {
    if |params| > 0 {
      VisibleNamesMembership(params[1..], n);
      assert ParamNames(params) == [params[0].name] + ParamNames(params[1..]);
    }
  }

  /** After the first parameter is entered, the remaining names are still
      distinct and still absent from the accumulated dict. */
  lemma GetParamsTailFresh(acc: Dict.Dict<ParamSchema>, params: seq<Param>)
    requires |params| > 0 && DistinctNames(params)
    requires forall i :: 0 <= i < |params| ==> params[i].name !in Dict.Keys(acc)
    ensures DistinctNames(params[1..])
    ensures var acc' := if params[0].name == "self" then acc else Dict.Put(acc, params[0].name, SchemaOf(params[0]));
            forall i :: 0 <= i < |params[1..]| ==> params[1..][i].name !in Dict.Keys(acc')
  {
    var p := params[0];
    var acc' := if p.name == "self" then acc else Dict.Put(acc, p.name, SchemaOf(p));
    forall a, b | 0 <= a < b < |params[1..]| ensures params[1..][a].name != params[1..][b].name {
      assert params[1..][a] == params[a + 1] && params[1..][b] == params[b + 1];
    }
    forall i | 0 <= i < |params[1..]| ensures params[1..][i].name !in Dict.Keys(acc') {
      assert params[1..][i] == params[i + 1];
      assert params[i + 1].name != p.name;
    }
  }

  lemma {:induction false} GetParamsFromSpec(acc: Dict.Dict<ParamSchema>, params: seq<Param>)
    requires DistinctNames(params)
    requires forall i :: 0 <= i < |params| ==> params[i].name !in Dict.Keys(acc)
    ensures Dict.Keys(GetParamsFrom(acc, params)) == Dict.Keys(acc) + VisibleNames(params)
    ensures forall k :: k in Dict.Keys(acc) ==> Dict.Get(GetParamsFrom(acc, params), k) == Dict.Get(acc, k)
    ensures forall i :: 0 <= i < |params| && params[i].name != "self" ==>
              Dict.Get(GetParamsFrom(acc, params), params[i].name) == Some(SchemaOf(params[i]))
    decreases |params|
  {
    if |params| > 0 {
      var p := params[0];
      var acc' := if p.name == "self" then acc else Dict.Put(acc, p.name, SchemaOf(p));
      GetParamsTailFresh(acc, params);
      GetParamsFromSpec(acc', params[1..]);
      var r := GetParamsFrom(acc, params);
      assert r == GetParamsFrom(acc', params[1..]);
      forall i | 0 <= i < |params| && params[i].name != "self"
        ensures Dict.Get(r, params[i].name) == Some(SchemaOf(params[i]))
      {
        if i > 0 {
          assert params[1..][i - 1] == params[i];
        } else {
          assert p.name in Dict.Keys(acc');
        }
      }
    }
  }

  /** `get_params` reports exactly the non-`self` parameters, in signature
      order; each with its schema type, an empty description, and a default
      exactly when the parameter has one. */
  lemma GetParamsSpec(params: seq<Param>)
    requires DistinctNames(params)
    ensures Dict.Keys(GetParams(params)) == VisibleNames(params)
    ensures "self" !in Dict.Keys(GetParams(params))
    ensures forall i :: 0 <= i < |params| && params[i].name != "self" ==>
              && Dict.Get(GetParams(params), params[i].name).Some?
              && Dict.Get(GetParams(params), params[i].name).value.jsonType == SchemaType(params[i].hint)
              && Dict.Get(GetParams(params), params[i].name).value.description == ""
              && (Dict.Get(GetParams(params), params[i].name).value.default.Some? <==> params[i].default.Some?)
              && Dict.Get(GetParams(params), params[i].name).value.default == params[i].default
  {
    GetParamsFromSpec([], params);
    VisibleNamesMembership(params, "self");
  }

  /** `func.__doc__ or ""`. */
  function DocText(doc: Option<string>): string {
    if Truthy(doc) then doc.value else ""
  }

  /** `tool_defs()`: one definition per registry key, in map order.
      `inspect.signature` raises on an entry that is not callable, so then
      there is no list at all. */
  function ToolDefs(fm: FunctionMap): (r: Option<seq<ToolDef>>)
    ensures r.Some? <==> forall i :: 0 <= i < |fm| ==> fm[i].1.Callable?
    ensures r.Some? ==> |r.value| == |fm|
    ensures r.Some? ==> forall i :: 0 <= i < |fm| ==>
              && r.value[i].kind == "function"
              && r.value[i].name == fm[i].0
              && r.value[i].description == DocText(fm[i].1.tool.doc)
              && r.value[i].parameters.kind == "object"
              && r.value[i].parameters.properties == GetParams(fm[i].1.tool.params)
  {
    if forall i :: 0 <= i < |fm| ==> fm[i].1.Callable? then
      Some(seq(|fm|, i requires 0 <= i < |fm| && fm[i].1.Callable? =>
        ToolDef("function", fm[i].0, DocText(fm[i].1.tool.doc),
                ObjectSchema("object", GetParams(fm[i].1.tool.params)))))
    else None
  }
}

=== FILE: session.dfy ===
/** The per-call state `handle_media_stream` keeps in `twilio_handler.py`,
    the messages it sends to the caller (Twilio) and to the AI engine
    (OpenAI Realtime), and the invariant every step keeps. */
module Session {
  import opened Common
  import opened Json
  import Registry

  /** One entry of `conversation_history`: `{"user": t}` or `{"agent": t}`. */
  datatype Turn = User(text: string) | Agent(text: string)

  /** The handler's local variables. `relayAlive` records whether the loop
      relaying AI events (`send_to_twilio`) is still running: an exception
      inside it ends the loop for the rest of the call. */
  datatype State = State(
    streamSid: Option<string>,
    callSid: Option<string>,
    latestMediaTimestamp: int,
    lastAssistantItem: Option<string>,
    markQueue: seq<string>,
    responseStart: Option<int>,
    history: seq<Turn>,
    relayAlive: bool)

  /** The state right after the AI session is initialised. */
  const Initial := State(None, None, 0, None, [], None, [], true)

  /** The only mark name the handler uses. */
  const ResponsePart := "responsePart"

  /** Messages to the AI engine. */
  datatype ToAi =
    | AudioAppend(audio: string)                                      // input_audio_buffer.append
    | Truncate(itemId: string, contentIndex: int, audioEndMs: int)     // conversation.item.truncate
    | FunctionCallOutput(callId: Option<string>, output: Registry.Envelope)  // conversation.item.create
    | ResponseCreate                                                  // response.create

  /** Messages to the caller's media stream. */
  datatype ToTwilio =
    | Media(streamSid: Option<string>, payload: string)
    | Mark(markSid: string, name: string)
    | Clear(clearSid: Option<string>)

  datatype Outbound = ToOpenAi(ai: ToAi) | ToCaller(twilio: ToTwilio)

  /** A step's result: the new state and what was sent, in order. */
  datatype Step = Step(state: State, out: seq<Outbound>)

  /** What every reachable state satisfies: the assistant item is either
      unset or a non-empty id, it is set only while a response start is
      recorded, and every queued mark is a `responsePart` mark. */
  predicate Valid(s: State) {
    && (s.lastAssistantItem.None? || Truthy(s.lastAssistantItem))
    && (s.lastAssistantItem.Some? ==> s.responseStart.Some?)
    && (forall i :: 0 <= i < |s.markQueue| ==> s.markQueue[i] == ResponsePart)
  }

  /** The start of every call is valid. */
  lemma InitialValid()
    ensures Valid(Initial)
  {
  }

  /** `conversation_history` as the JSON value injected into tool arguments. */
  function TurnJson(t: Turn): Json {
    match t
    case User(x) => Obj([("user", Str(x))])
    case Agent(x) => Obj([("agent", Str(x))])
  }

  function HistoryJson(h: seq<Turn>): (j: Json)
    ensures j.Arr? && |j.items| == |h|
    ensures forall i :: 0 <= i < |h| ==>
              j.items[i] == Obj([(if h[i].User? then "user" else "agent", Str(h[i].text))])
  {
    Arr(seq(|h|, i requires 0 <= i < |h| => TurnJson(h[i])))
  }
}

=== FILE: signatures.dfy ===
/** The declared Python signatures of the tools the registry holds, and
    what keyword binding and `get_params` make of them. The tools' bodies
    live in their own modules or are not part of this model. */
module Signatures {
  import opened Common
  import opened Json
  import opened Registry
  import Dict

  /** `str | None`. */
  const OptionalStr := UnionHint([StrHint, ClassHint("NoneType")])

  function Required(name: string, hint: TypeHint): Param {
    Param(name, hint, None)
  }

  /** A parameter declared `= None`. */
  function DefaultNone(name: string, hint: TypeHint): Param {
    Param(name, hint, Some(Null))
  }

  /** The names the registry maps, in the order of its `function_map`. */
  const RegisteredNames: seq<string> := [
    "verification_tool", "create_case", "get_case", "classify_email",
    "analyze_sentiment_email", "generate_case_summary", "update_case", "hangup_call"
  ]

  const VerificationToolParams: seq<Param> := [
    Required("phone_number", StrHint),
    DefaultNone("customer_id", OptionalStr),
    DefaultNone("answer", OptionalStr)
  ]

  const CreateCaseParams: seq<Param> := [
    Required("subject", StrHint),
    Required("contact_phone", StrHint),
    Required("body", StrHint),
    DefaultNone("disputed_amount", UnionHint([FloatHint, ClassHint("NoneType")])),
    DefaultNone("description", OptionalStr),
    DefaultNone("ai_summary_content", OptionalStr),
    DefaultNone("priority", OptionalStr),
    DefaultNone("request_type", OptionalStr)
  ]

  const GetCaseParams: seq<Param> := [Required("case_number", StrHint)]

  const UpdateCaseParams: seq<Param> := [
    Required("case_number", StrHint),
    DefaultNone("ai_summary_content", OptionalStr),
    DefaultNone("comments", OptionalStr),
    DefaultNone("notes", OptionalStr),
    DefaultNone("email_content", UnionHint([ClassHint("EmailContentModel"), ClassHint("NoneType")])),
    DefaultNone("priority", OptionalStr),
    DefaultNone("request_type", OptionalStr)
  ]

  /** `call_sid: str = None`: the annotation stays plain `str`. */
  const HangupCallParams: seq<Param> := [DefaultNone("call_sid", StrHint)]

  const GenerateCaseSummaryParams: seq<Param> := [
    Required("sentiment_analysis", StrHint),
    Required("classification", StrHint),
    Required("users_description", StrHint)
  ]

  /** `create_case` declares no `conversation_history` parameter, so any
      argument object carrying that key fails keyword binding with an
      unexpected-keyword `TypeError`. */
  lemma CreateCaseRefusesHistory(fields: Dict.Dict<Json>)
    requires "conversation_history" in Dict.Keys(fields)
    ensures Bind(CreateCaseParams, Obj(fields)).Err?
    ensures Bind(CreateCaseParams, Obj(fields)).error.UnexpectedKeyword?
  {
    var i :| 0 <= i < |fields| && Dict.Keys(fields)[i] == "conversation_history";
    assert fields[i].0 == "conversation_history";
    assert "conversation_history" !in ParamNames(CreateCaseParams);
  }

  /** `hangup_call` accepts the `call_sid` the session injects, and nothing
      else is required of it. */
  lemma HangupCallBindsCallSid(sid: Json)
    ensures Bind(HangupCallParams, Obj([("call_sid", sid)])) == Ok(map["call_sid" := sid])
  {
    var r := Bind(HangupCallParams, Obj([("call_sid", sid)]));
    assert ParamNames(HangupCallParams) == ["call_sid"];
    assert Dict.Keys([("call_sid", sid)]) == ["call_sid"];
    assert r.Ok?;
  }

  /** The schema of `disputed_amount` says "string": `float | None` is not
      the exact type `float`. */
  lemma DisputedAmountIsAdvertisedAsString()
    ensures Dict.Get(GetParams(CreateCaseParams), "disputed_amount") ==
              Some(ParamSchema("string", "", Some(Null)))
  {
    assert DistinctNames(CreateCaseParams);
    GetParamsSpec(CreateCaseParams);
    assert CreateCaseParams[3].name == "disputed_amount";
  }
}

=== FILE: update_case.dfy ===
/** `update_case` (`tools/update_case.py`): find a case by its number, write
    the fields whose arguments were given, and return the updated record or
    an error dict. Every exception becomes an error. */
module UpdateCaseTool {
  import opened Common
  import Dict
  import opened Json
  import opened CaseLookup
  import GetCaseTool

  /** `EmailContentModel`: an optional subject and body. */
  datatype EmailContent = EmailContent(subject: Option<string>, body: Option<string>)

  /** What arrives as `email_content`: an `EmailContentModel` when a Python
      caller builds one, or a plain JSON value (a `dict`, a string, ...)
      when the arguments come from `json.loads`, as they do for every call
      the voice session makes through `call_function`. */
  datatype EmailArg = EmailModel(content: EmailContent) | EmailValue(value: Json)

  /** The arguments of `update_case`, in declaration order. */
  datatype UpdateArgs = UpdateArgs(
    caseNumber: string,
    aiSummaryContent: Option<string>,
    comments: Option<string>,
    notes: Option<string>,
    emailContent: Option<EmailArg>,
    priority: Option<string>,
    requestType: Option<string>)

  const AiSummaryField := "AI_Summary_Content__c"
  const NotesField := "Comments_Notes__c"
  const CommentsField := "Comments"
  const PriorityField := "Priority"
  const RequestTypeField := "Request_Type__c"
  const EmailContentField := "EmailContent__c"

  const NoFieldsText := "No fields provided to update."

  /** The error text for any exception raised inside the `try`. */
  function Occurred(detail: string): string {
    "An error occurred: " + detail
  }

  function StatusMessage(status: int): string {
    "Failed to update case. Status code: " + IntText(status)
  }

  function StrOf(o: Option<string>): Option<Json> {
    if o.Some? then Some(Str(o.value)) else None
  }

  /** `str(e)` of the `AttributeError` raised when `model_dump_json` is
      looked up on a plain value. */
  function NoDumpText(j: Json): string {
    "'" + TypeName(j) + "' object has no attribute 'model_dump_json'"
  }

  /** `email_content.model_dump_json()`: the model's JSON text (`dump`), or
      the `AttributeError` a plain value raises. That error is not the
      `TypeError` the inner `except` catches, so it reaches the outer one. */
  function DumpEmail(e: EmailArg, dump: EmailContent -> string): (r: Result<string, string>)
    ensures r.Ok? <==> e.EmailModel?
    ensures e.EmailModel? ==> r.value == dump(e.content)
    ensures e.EmailValue? ==> r.error == NoDumpText(e.value)
  {
    match e
    case EmailModel(c) => Ok(dump(c))
    case EmailValue(j) => Err(NoDumpText(j))
  }

  /** The `email_content` that keyword binding hands over for a parsed JSON
      argument: `null` is `None`, anything else is the plain value. */
  function SessionEmail(j: Json): Option<EmailArg> {
    if j == Null then None else Some(EmailValue(j))
  }

  /** `email_content` is absent or can be dumped. */
  predicate EmailDumps(a: UpdateArgs) {
    a.emailContent.None? || a.emailContent.value.EmailModel?
  }

  /** Each Salesforce field paired with the argument that fills it, in the
      order the tool tests them; `dump` is `model_dump_json`. */
  function UpdateSlots(a: UpdateArgs, dump: EmailContent -> string): seq<(string, Option<Json>)> {
    [ (AiSummaryField, StrOf(a.aiSummaryContent)),
      (NotesField, StrOf(a.notes)),
      (CommentsField, StrOf(a.comments)),
      (PriorityField, StrOf(a.priority)),
      (RequestTypeField, StrOf(a.requestType)),
      (EmailContentField, if a.emailContent.Some? && a.emailContent.value.EmailModel?
                          then Some(Str(dump(a.emailContent.value.content))) else None) ]
  }

  /** `update_data`: one `if x is not None: update_data[F] = x` per slot. */
  function UpdateData(a: UpdateArgs, dump: EmailContent -> string): Record {
    Dict.PutAll([], UpdateSlots(a, dump))
  }

  /** No optional argument was given. */
  predicate NothingToUpdate(a: UpdateArgs) {
    && a.aiSummaryContent.None? && a.comments.None? && a.notes.None?
    && a.emailContent.None? && a.priority.None? && a.requestType.None?
  }

  /** Each given argument fills exactly its own field, a `None` argument
      contributes no key, no other key appears, and (for a dumpable
      `email_content`) the dict is empty exactly when no optional argument
      was given. */
  lemma {:induction false} UpdateDataFields(a: UpdateArgs, dump: EmailContent -> string)
    ensures var d := UpdateData(a, dump);
            && Dict.Get(d, AiSummaryField) == StrOf(a.aiSummaryContent)
            && Dict.Get(d, NotesField) == StrOf(a.notes)
            && Dict.Get(d, CommentsField) == StrOf(a.comments)
            && Dict.Get(d, PriorityField) == StrOf(a.priority)
            && Dict.Get(d, RequestTypeField) == StrOf(a.requestType)
            && (a.emailContent.None? ==> Dict.Get(d, EmailContentField) == None)
            && (a.emailContent.Some? && a.emailContent.value.EmailModel? ==>
                  Dict.Get(d, EmailContentField) == Some(Str(dump(a.emailContent.value.content))))
    ensures forall k :: k in Dict.Keys(UpdateData(a, dump)) ==>
              k in [AiSummaryField, NotesField, CommentsField, PriorityField, RequestTypeField, EmailContentField]
    ensures NothingToUpdate(a) ==> UpdateData(a, dump) == []
    ensures EmailDumps(a) && UpdateData(a, dump) == [] ==> NothingToUpdate(a)
  {
    var slots := UpdateSlots(a, dump);
    assert Dict.SlotKeys(slots) == [AiSummaryField, NotesField, CommentsField, PriorityField, RequestTypeField, EmailContentField];
    Dict.PutAllFresh([], slots);
    assert UpdateData(a, dump) == Dict.Present(slots);
    Dict.GetPresent(slots, 0);
    Dict.GetPresent(slots, 1);
    Dict.GetPresent(slots, 2);
    Dict.GetPresent(slots, 3);
    Dict.GetPresent(slots, 4);
    Dict.GetPresent(slots, 5);
    Dict.PresentKeys(slots);
    Dict.PresentEmpty(slots);
    assert NothingToUpdate(a) ==> forall i :: 0 <= i < |slots| ==> slots[i].1.None?;
    assert EmailDumps(a) && (forall i :: 0 <= i < |slots| ==> slots[i].1.None?) ==> NothingToUpdate(a);
  }

  /** `update_case(...)`. `connect` is the outcome of fetching credentials
      and opening the client. */
  function UpdateCase(connect: Remote<Client>, a: UpdateArgs, dump: EmailContent -> string): (r: Reply)
    ensures connect.Failed? ==> r == Error(Occurred(connect.detail))
    ensures connect.Done? && connect.value.query(CaseQuery(a.caseNumber)).Failed? ==>
              r == Error(Occurred(connect.value.query(CaseQuery(a.caseNumber)).detail))
    ensures connect.Done? && connect.value.query(CaseQuery(a.caseNumber)).Done? ==>
              var t := TriageOf(connect.value.query(CaseQuery(a.caseNumber)).value);
              && (t.IndexError? ==> r == Error(Occurred(IndexErrorText)))
              && (t.Unique? && !EmailDumps(a) ==>
                    r == Error(Occurred(DumpEmail(a.emailContent.value, dump).error)))
              && (t.Unique? && EmailDumps(a) && UpdateData(a, dump) != [] &&
                  connect.value.updateCase(t.caseId, UpdateData(a, dump)).Failed? ==>
                    r == Error(Occurred(connect.value.updateCase(t.caseId, UpdateData(a, dump)).detail)))
    ensures r.CaseRecord? <==>
              && connect.Done?
              && connect.value.query(CaseQuery(a.caseNumber)).Done?
              && var q := connect.value.query(CaseQuery(a.caseNumber)).value;
                 && TriageOf(q).Unique?
                 && EmailDumps(a)
                 && UpdateData(a, dump) != []
                 && connect.value.updateCase(q.recordIds[0], UpdateData(a, dump)) == Done(204)
                 && connect.value.getCase(q.recordIds[0]).Done?
    ensures r.CaseRecord? ==>
              && connect.Done?
              && var q := connect.value.query(CaseQuery(a.caseNumber)).value;
                 && |q.recordIds| > 0
                 && connect.value.getCase(q.recordIds[0]) == Done(r.fields)
  {
    match connect
    case Failed(d) => Error(Occurred(d))
    case Done(sf) =>
      match sf.query(CaseQuery(a.caseNumber))
      case Failed(d) => Error(Occurred(d))
      case Done(q) =>
        match TriageOf(q)
        case NoCase => Error(NotFoundMessage(a.caseNumber))
        case ManyCases => Error(MultipleMessage(a.caseNumber))
        case IndexError => Error(Occurred(IndexErrorText))
        case Unique(id) =>
          if !EmailDumps(a) then Error(Occurred(DumpEmail(a.emailContent.value, dump).error))
          else
          var data := UpdateData(a, dump);
          if data == [] then Error(NoFieldsText)
          else
            match sf.updateCase(id, data)
            case Failed(d) => Error(Occurred(d))
            case Done(status) =>
              if status == 204 then
                match sf.getCase(id)
                case Failed(d) => Error(Occurred(d))
                case Done(rec) => CaseRecord(rec)
              else Error(StatusMessage(status))
  }

  /** The lookup is triaged before the fields are looked at: a missing or
      ambiguous case gives the same error whatever the optional arguments,
      and the same error `get_case` gives. */
  lemma LookupBeforeFields(sf: Client, a: UpdateArgs, b: UpdateArgs, dump: EmailContent -> string)
    requires a.caseNumber == b.caseNumber
    requires sf.query(CaseQuery(a.caseNumber)).Done?
    requires TriageOf(sf.query(CaseQuery(a.caseNumber)).value) in {NoCase, ManyCases}
    ensures UpdateCase(Done(sf), a, dump) == UpdateCase(Done(sf), b, dump)
    ensures UpdateCase(Done(sf), a, dump) == GetCaseTool.GetCase(Done(sf), a.caseNumber)
  {
  }

  /** With the case found but no optional argument given, the result is
      "No fields provided to update." and no update is sent. */
  lemma NoFieldsError(sf: Client, a: UpdateArgs, dump: EmailContent -> string)
    requires NothingToUpdate(a)
    requires sf.query(CaseQuery(a.caseNumber)).Done?
    requires TriageOf(sf.query(CaseQuery(a.caseNumber)).value).Unique?
    ensures UpdateCase(Done(sf), a, dump) == Error(NoFieldsText)
  {
    UpdateDataFields(a, dump);
  }

  /** Any status other than 204 is reported with its code, and only 204 can
      lead to a record. */
  lemma StatusDecides(sf: Client, a: UpdateArgs, dump: EmailContent -> string, status: int)
    requires sf.query(CaseQuery(a.caseNumber)).Done?
    requires TriageOf(sf.query(CaseQuery(a.caseNumber)).value).Unique?
    requires !NothingToUpdate(a) && EmailDumps(a)
    requires sf.updateCase(TriageOf(sf.query(CaseQuery(a.caseNumber)).value).caseId, UpdateData(a, dump)) == Done(status)
    ensures status != 204 ==> UpdateCase(Done(sf), a, dump) == Error(StatusMessage(status))
    ensures var id := TriageOf(sf.query(CaseQuery(a.caseNumber)).value).caseId;
            status == 204 ==> match sf.getCase(id)
                              case Done(rec) => UpdateCase(Done(sf), a, dump) == CaseRecord(rec)
                              case Failed(d) => UpdateCase(Done(sf), a, dump) == Error(Occurred(d))
  {
    UpdateDataFields(a, dump);
  }

  /** Different status codes give different error texts. */
  lemma StatusMessageInjective(s: int, t: int)
    requires StatusMessage(s) == StatusMessage(t)
    ensures s == t
  {
    var p := "Failed to update case. Status code: ";
    assert IntText(s) == StatusMessage(s)[|p|..];
    assert IntText(t) == StatusMessage(t)[|p|..];
    IntTextInjective(s, t);
  }

  /** An `email_content` that arrives as parsed JSON, as it does from the
      voice session, never leads to an update: once the case is found the
      call answers with the `AttributeError` text, whatever `sf.Case.update`
      would have done, and no call with such an argument returns a record. */
  lemma SessionEmailNeverUpdates(sf: Client, a: UpdateArgs, j: Json, dump: EmailContent -> string,
                                 update: (string, Record) -> Remote<int>)
    requires j != Null && a.emailContent == SessionEmail(j)
    ensures !UpdateCase(Done(sf), a, dump).CaseRecord?
    ensures UpdateCase(Done(sf), a, dump) == UpdateCase(Done(sf.(updateCase := update)), a, dump)
    ensures sf.query(CaseQuery(a.caseNumber)).Done? && TriageOf(sf.query(CaseQuery(a.caseNumber)).value).Unique? ==>
              UpdateCase(Done(sf), a, dump) == Error(Occurred(NoDumpText(j)))
  {
  }
}

=== FILE: verification.dfy ===
/** The identity-verification tool (`tools/verification_tool.py`): input
    normalisation, a two-key customer lookup over a hard-coded table, and a
    security-question check. */
module Verification {
  import opened Common

  // ---------------------------------------------------------------------
  // clean_string

  /** The characters `clean_string` deletes outright. */
  predicate IsRemoved(c: char) {
    c == ' ' || c == '-' || c == '_'
  }

  /** ASCII characters Python's `str.isspace` accepts (`\t` to `\r`, the
      four separators `\x1c` to `\x1f`, and the space). */
  predicate IsSpace(c: char) {
    (9 <= c as int <= 13) || (28 <= c as int <= 32)
  }

  predicate IsUpper(c: char) {
    'A' <= c <= 'Z'
  }

  /** ASCII lower-casing of one character. */
  function LowerChar(c: char): char {
    if IsUpper(c) then (c as int + 32) as char else c
  }

  /** No character `clean_string` would delete or lower-case. */
  predicate Plain(s: string) {
    forall i :: 0 <= i < |s| ==> !IsRemoved(s[i]) && !IsUpper(s[i])
  }

  /** `.replace(' ', '').replace('-', '').replace('_', '').lower()` in one
      pass (deleting first or lower-casing first gives the same string,
      since lower-casing neither creates nor destroys ` `, `-` or `_`). */
  function RemoveAndLower(s: string): (r: string)
    ensures |r| <= |s|
    ensures Plain(r)
    ensures Plain(s) ==> r == s
  {
    if |s| == 0 then ""
    else (if IsRemoved(s[0]) then "" else [LowerChar(s[0])]) + RemoveAndLower(s[1..])
  }

  /** One character is deleted when it is ` `, `-` or `_`, and otherwise
      kept, lower-cased. */
  lemma RemoveAndLowerChar(c: char)
    ensures RemoveAndLower([c]) == if IsRemoved(c) then "" else [LowerChar(c)]
  {
    assert [c][1..] == "";
  }

  /** The cleaning works character by character: a concatenation cleans to
      the concatenation of the cleaned parts, so every kept character
      survives, lower-cased, in its original order. */
  lemma {:induction false} RemoveAndLowerConcat(a: string, b: string)
    ensures RemoveAndLower(a + b) == RemoveAndLower(a) + RemoveAndLower(b)
    decreases |a|
  {
    if |a| > 0 {
      var head := if IsRemoved(a[0]) then "" else [LowerChar(a[0])];
      assert (a + b)[0] == a[0];
      assert (a + b)[1..] == a[1..] + b;
      assert RemoveAndLower(a + b) == head + RemoveAndLower(a[1..] + b);
      RemoveAndLowerConcat(a[1..], b);
      assert RemoveAndLower(a) == head + RemoveAndLower(a[1..]);
    } else {
      assert a + b == b;
    }
  }

  /** The first position at or after `i` that does not hold whitespace. */
  function SkipSpaces(s: string, i: nat): (k: nat)
    requires i <= |s|
    ensures i <= k <= |s|
    ensures k < |s| ==> !IsSpace(s[k])
    ensures i < |s| && !IsSpace(s[i]) ==> k == i
    ensures forall j :: i <= j < k ==> IsSpace(s[j])
    decreases |s| - i
  {
    if i < |s| && IsSpace(s[i]) then SkipSpaces(s, i + 1) else i
  }

  /** The end of `s[lo..hi]` once trailing whitespace is dropped. */
  function TrimEnd(s: string, lo: nat, hi: nat): (k: nat)
    requires lo <= hi <= |s|
    ensures lo <= k <= hi
    ensures k > lo ==> !IsSpace(s[k - 1])
    ensures hi > lo && !IsSpace(s[hi - 1]) ==> k == hi
    ensures lo < hi && !IsSpace(s[lo]) ==> k > lo
    ensures forall j :: k <= j < hi ==> IsSpace(s[j])
    decreases hi
  {
    if hi > lo && IsSpace(s[hi - 1]) then TrimEnd(s, lo, hi - 1) else hi
  }

  /** `.strip()`: whitespace cut from both ends. The result is a slice of
      the input with only whitespace before and after it, and it neither
      starts nor ends with whitespace, so exactly the leading and trailing
      whitespace is gone. */
  function Strip(s: string): (r: string)
    ensures |r| <= |s|
    ensures exists a, b :: 0 <= a <= b <= |s| && r == s[a..b]
                           && (forall i :: 0 <= i < a ==> IsSpace(s[i]))
                           && (forall i :: b <= i < |s| ==> IsSpace(s[i]))
    ensures |r| > 0 ==> !IsSpace(r[0]) && !IsSpace(r[|r| - 1])
    ensures Plain(s) ==> Plain(r)
    ensures (|s| > 0 ==> !IsSpace(s[0]) && !IsSpace(s[|s| - 1])) ==> r == s
  {
    var a := SkipSpaces(s, 0);
    var b := TrimEnd(s, a, |s|);
    assert a < |s| ==> b > a;
    assert 0 <= a <= b <= |s| && s[a..b] == s[a..b];
    s[a..b]
  }

  /** A string `clean_string` leaves as it is: none of ` `, `-`, `_`, no
      upper-case ASCII letter, no whitespace at either end. */
  predicate Cleaned(s: string) {
    Plain(s) && (|s| > 0 ==> !IsSpace(s[0]) && !IsSpace(s[|s| - 1]))
  }

  /** `clean_string(s)`: delete ` `, `-` and `_`, lower-case, strip. The
      result never grows and is always in cleaned form. */
  function Clean(s: string): (r: string)
    ensures Cleaned(r)
    ensures |r| <= |s|
  {
    Strip(RemoveAndLower(s))
  }

  /** Deleting and lower-casing leaves no whitespace when the only
      whitespace in the input is the space. */
  lemma {:induction false} RemoveAndLowerNoSpace(s: string)
    requires forall i :: 0 <= i < |s| && IsSpace(s[i]) ==> s[i] == ' '
    ensures forall i :: 0 <= i < |RemoveAndLower(s)| ==> !IsSpace(RemoveAndLower(s)[i])
    decreases |s|
  {
    if |s| > 0 {
      assert forall i :: 0 <= i < |s[1..]| ==> s[1..][i] == s[i + 1];
      RemoveAndLowerNoSpace(s[1..]);
    }
  }

  /** For input whose only whitespace is the space (phone numbers, ids and
      typical answers), cleaning is exactly the character-by-character
      deletion and lower-casing: `strip()` has nothing left to cut. */
  lemma CleanIsCharwise(s: string)
    requires forall i :: 0 <= i < |s| && IsSpace(s[i]) ==> s[i] == ' '
    ensures Clean(s) == RemoveAndLower(s)
  {
    RemoveAndLowerNoSpace(s);
  }

  /** A cleaned string is its own cleaning. */
  lemma CleanKeepsCleaned(s: string)
    requires Cleaned(s)
    ensures Clean(s) == s
  {
  }

  /** `clean_string` is idempotent. */
  lemma CleanIdempotent(s: string)
    ensures Clean(Clean(s)) == Clean(s)
  {
    CleanKeepsCleaned(Clean(s));
  }

  // ---------------------------------------------------------------------
  // The tables

  datatype Customer = Customer(customerId: string, fullName: string, phoneNumber: string, email: string)

  datatype SecurityQuestion = SecurityQuestion(question: string, answer: string)

  /** The customer list and the security questions keyed by customer id.
      The tool hard-codes them (`Source` below); the model takes them as a
      parameter so that its properties are stated for any contents. */
  datatype Tables = Tables(customers: seq<Customer>, questions: map<string, SecurityQuestion>)

  const Customers: seq<Customer> := [
    Customer("1001", "Mohammed Naseef", "9876543210", "mohammed.n@ampcome.com"),
    Customer("1002", "ABC", "123", "abctest@gmail.com"),
    Customer("1003", "Jane Smith", "2288534567", "janesmithtst@gmail.com"),
    Customer("1004", "John Doe", "189", "johndoe@gmail.com")
  ]

  const SecurityQuestions: map<string, SecurityQuestion> := map[
    "1001" := SecurityQuestion("Who is your childhood friend?", "alex"),
    "1002" := SecurityQuestion("What is your favorite color?", "white"),
    "1003" := SecurityQuestion("What is your favorite bird?", "parrot"),
    "1004" := SecurityQuestion("What is your mother's maiden name?", "smith")
  ]

  const Source := Tables(Customers, SecurityQuestions)

  /** Every record's phone number and id are already in cleaned form. */
  predicate KeysCleaned(cs: seq<Customer>) {
    forall i :: 0 <= i < |cs| ==> Cleaned(cs[i].phoneNumber) && Cleaned(cs[i].customerId)
  }

  /** Every customer in the list has a security question. */
  predicate EveryoneHasQuestion(t: Tables) {
    forall i :: 0 <= i < |t.customers| ==> t.customers[i].customerId in t.questions
  }

  // ---------------------------------------------------------------------
  // Lookup and the tool

  /** A record matches when its cleaned phone number and cleaned id equal
      the (already cleaned) inputs. */
  predicate Matches(c: Customer, phone: string, id: string) {
    Clean(c.phoneNumber) == phone && Clean(c.customerId) == id
  }

  /** For a record whose keys are already cleaned, matching is plain
      equality of the keys. */
  lemma MatchesCleanedRecord(c: Customer, phone: string, id: string)
    requires Cleaned(c.phoneNumber) && Cleaned(c.customerId)
    ensures Matches(c, phone, id) <==> c.phoneNumber == phone && c.customerId == id
  {
    CleanKeepsCleaned(c.phoneNumber);
    CleanKeepsCleaned(c.customerId);
  }

  /** The scan of a list from position `from` on: the index of the first
      element satisfying `p`, if any. */
  function FirstFrom<T>(xs: seq<T>, p: T -> bool, from: nat): (r: Option<nat>)
    requires from <= |xs|
    ensures r.None? <==> forall i :: from <= i < |xs| ==> !p(xs[i])
    ensures r.Some? ==> && from <= r.value < |xs|
                        && p(xs[r.value])
                        && forall j :: from <= j < r.value ==> !p(xs[j])
    decreases |xs| - from
  {
    if from == |xs| then None
    else if p(xs[from]) then Some(from)
    else FirstFrom(xs, p, from + 1)
  }

  /** `for cust_data in customers: ... break`: the first record matching
      both cleaned keys, or none. */
  function FindCustomer(cs: seq<Customer>, phone: string, id: string): (r: Option<Customer>)
    ensures r.None? <==> forall i :: 0 <= i < |cs| ==> !Matches(cs[i], phone, id)
    ensures r.Some? ==> exists i :: && 0 <= i < |cs|
                                    && cs[i] == r.value
                                    && Matches(r.value, phone, id)
                                    && forall j :: 0 <= j < i ==> !Matches(cs[j], phone, id)
  {
    match FirstFrom(cs, c => Matches(c, phone, id), 0)
    case None => None
    case Some(i) => Some(cs[i])
  }

  /** The result of `verification_tool`; its `"status"` field is `Status`. */
  datatype Response =
    | InvalidInput(message: string)
    | CustomerNotFound(message: string)
    | NoSecurityQuestion(message: string)
    | QuestionProvided(question: string)
    | Verified(customer: Customer)
    | VerificationFailed(message: string)

  function Status(r: Response): string {
    match r
    case InvalidInput(_) => "invalid_input"
    case CustomerNotFound(_) => "customer_not_found"
    case NoSecurityQuestion(_) => "no_security_question_configured"
    case QuestionProvided(_) => "security_question_provided"
    case Verified(_) => "verified"
    case VerificationFailed(_) => "verification_failed"
  }

  const PhoneRequired := "Input 'phone_number' is required."
  const CustomerIdRequired := "Input 'customer_id' is required."
  const NotFoundText := "No customer found with the provided phone number and customer ID."
  const NoQuestionText := "No security question is configured for this account."
  const WrongAnswerText := "The answer provided was incorrect."

  /** `verification_tool(phone_number, customer_id, answer)` over tables
      `t`; `None` stands for a `None` argument. */
  function Verify(t: Tables, phone: Option<string>, customerId: Option<string>, answer: Option<string>): (r: Response)
    ensures !Truthy(phone) ==> r == InvalidInput(PhoneRequired)
    ensures Truthy(phone) && !Truthy(customerId) ==> r == InvalidInput(CustomerIdRequired)
    ensures Truthy(phone) && Truthy(customerId) ==>
              (r.CustomerNotFound? <==> forall i :: 0 <= i < |t.customers| ==>
                                          !Matches(t.customers[i], Clean(phone.value), Clean(customerId.value)))
    ensures r.NoSecurityQuestion? ==>
              exists i :: 0 <= i < |t.customers| && t.customers[i].customerId !in t.questions
    ensures r.QuestionProvided? ==>
              answer.None? && exists i :: && 0 <= i < |t.customers|
                                          && t.customers[i].customerId in t.questions
                                          && r.question == t.questions[t.customers[i].customerId].question
    ensures r.Verified? ==>
              && Truthy(phone) && Truthy(customerId) && answer.Some?
              && r.customer in t.customers
              && Matches(r.customer, Clean(phone.value), Clean(customerId.value))
              && r.customer.customerId in t.questions
              && Clean(answer.value) == Clean(t.questions[r.customer.customerId].answer)
    ensures r.VerificationFailed? ==> answer.Some?
  {
    if !Truthy(phone) then InvalidInput(PhoneRequired)
    else if !Truthy(customerId) then InvalidInput(CustomerIdRequired)
    else
      match FindCustomer(t.customers, Clean(phone.value), Clean(customerId.value))
      case None => CustomerNotFound(NotFoundText)
      case Some(found) =>
        var id := found.customerId;
        if id !in t.questions then NoSecurityQuestion(NoQuestionText)
        else if answer.None? then QuestionProvided(t.questions[id].question)
        else if Clean(answer.value) == Clean(t.questions[id].answer) then Verified(found)
        else VerificationFailed(WrongAnswerText)
  }

  /** For a customer the lookup finds, no answer gets the customer's
      question, and an answer verifies exactly when its cleaned form equals
      the cleaned stored answer (and fails otherwise). */
  lemma AnswerDecides(t: Tables, phone: string, customerId: string, answer: Option<string>, c: Customer)
    requires phone != "" && customerId != ""
    requires FindCustomer(t.customers, Clean(phone), Clean(customerId)) == Some(c)
    requires c.customerId in t.questions
    ensures answer.None? ==>
              Verify(t, Some(phone), Some(customerId), answer) == QuestionProvided(t.questions[c.customerId].question)
    ensures answer.Some? ==>
              ((Verify(t, Some(phone), Some(customerId), answer) == Verified(c))
                 <==> (Clean(answer.value) == Clean(t.questions[c.customerId].answer)))
    ensures answer.Some? && Clean(answer.value) != Clean(t.questions[c.customerId].answer) ==>
              Verify(t, Some(phone), Some(customerId), answer) == VerificationFailed(WrongAnswerText)
  {
  }

  /** When every listed customer has a question, the tool never answers
      `no_security_question_configured`. */
  lemma NeverMissingQuestion(t: Tables, phone: Option<string>, customerId: Option<string>, answer: Option<string>)
    requires EveryoneHasQuestion(t)
    ensures Status(Verify(t, phone, customerId, answer)) != "no_security_question_configured"
  {
  }

  /** An empty answer takes the answer branch and fails whenever the stored
      answer does not clean to the empty string. */
  lemma EmptyAnswerFails(t: Tables, phone: string, customerId: string, c: Customer)
    requires phone != "" && customerId != ""
    requires FindCustomer(t.customers, Clean(phone), Clean(customerId)) == Some(c)
    requires c.customerId in t.questions
    requires Clean(t.questions[c.customerId].answer) != ""
    ensures Verify(t, Some(phone), Some(customerId), Some("")) == VerificationFailed(WrongAnswerText)
  {
    assert Clean("") == "";
    AnswerDecides(t, phone, customerId, Some(""), c);
  }

  /** With the hard-coded tables the tool never answers
      `no_security_question_configured`. */
  lemma SourceNeverMissingQuestion(phone: Option<string>, customerId: Option<string>, answer: Option<string>)
    ensures Status(Verify(Source, phone, customerId, answer)) != "no_security_question_configured"
  {
    SourceEveryoneHasQuestion();
    NeverMissingQuestion(Source, phone, customerId, answer);
  }

  /** The hard-coded customer list already holds its keys in cleaned form. */
  lemma SourceKeysCleaned()
    ensures KeysCleaned(Customers)
  {
    assert Cleaned(Customers[0].phoneNumber) && Cleaned(Customers[0].customerId);
    assert Cleaned(Customers[1].phoneNumber) && Cleaned(Customers[1].customerId);
    assert Cleaned(Customers[2].phoneNumber) && Cleaned(Customers[2].customerId);
    assert Cleaned(Customers[3].phoneNumber) && Cleaned(Customers[3].customerId);
  }

  /** Every hard-coded customer has a hard-coded question. */
  lemma SourceEveryoneHasQuestion()
    ensures EveryoneHasQuestion(Source)
  {
  }

  /** With keys in cleaned form, the lookup finds record `k` as soon as the
      cleaned inputs equal its keys and no earlier record has both keys. */
  lemma FindsRecord(cs: seq<Customer>, phone: string, id: string, k: nat)
    requires KeysCleaned(cs)
    requires k < |cs| && cs[k].phoneNumber == phone && cs[k].customerId == id
    requires forall j :: 0 <= j < k ==> cs[j].phoneNumber != phone || cs[j].customerId != id
    ensures FindCustomer(cs, phone, id) == Some(cs[k])
  {
    forall j | 0 <= j <= k
      ensures Matches(cs[j], phone, id) <==> j == k
    {
      MatchesCleanedRecord(cs[j], phone, id);
    }
  }

  /** Customer 1002 in the hard-coded tables: second in the list, after a
      record with another phone number, with a question configured. */
  lemma Customer1002Record()
    ensures |Customers| == 4
    ensures Customers[1] == Customer("1002", "ABC", "123", "abctest@gmail.com")
    ensures Customers[0].phoneNumber != "123"
    ensures "1002" in SecurityQuestions
    ensures SecurityQuestions["1002"] == SecurityQuestion("What is your favorite color?", "white")
  {
    assert Customers[0].phoneNumber[0] != '1';
  }

  /** Any phone number that cleans to "123" with any id that cleans to
      "1002", and no answer, gets customer 1002's question. */
  lemma QuestionForCustomer1002(phone: string, customerId: string)
    requires Clean(phone) == "123" && Clean(customerId) == "1002"
    ensures Verify(Source, Some(phone), Some(customerId), None) == QuestionProvided("What is your favorite color?")
  {
    Customer1002Found(phone, customerId);
    AnswerDecides(Source, phone, customerId, None, Customers[1]);
  }

  /** Keys that clean to "123" and "1002" find customer 1002, whose stored
      answer is already in cleaned form. */
  lemma Customer1002Found(phone: string, customerId: string)
    requires Clean(phone) == "123" && Clean(customerId) == "1002"
    ensures phone != "" && customerId != ""
    ensures FindCustomer(Source.customers, Clean(phone), Clean(customerId)) == Some(Customers[1])
    ensures Customers[1].customerId in Source.questions
    ensures Source.questions[Customers[1].customerId] == SecurityQuestion("What is your favorite color?", "white")
  {
    SourceKeysCleaned();
    Customer1002Record();
    FindsRecord(Customers, "123", "1002", 1);
  }

  /** Spaces inside a phone number do not matter: "1 2 3" cleans to
      customer 1002's phone number. */
  lemma SpacedPhoneCleans()
    ensures Clean("1 2 3") == "123"
  {
    assert RemoveAndLower("1 2 3") == "123";
    CleanKeepsCleaned("123");
  }

  /** Hyphens inside an id do not matter: "10-02" cleans to "1002". */
  lemma HyphenatedIdCleans()
    ensures Clean("10-02") == "1002"
  {
    assert RemoveAndLower("10-02") == "1002";
    CleanKeepsCleaned("1002");
  }

  /** Case and trailing blanks in an answer do not matter. */
  lemma NoisyAnswerCleans()
    ensures Clean("WHITE ") == "white"
  {
    assert RemoveAndLower("WHITE ") == "white";
    CleanKeepsCleaned("white");
  }

  /** An answer that cleans to "white", given with keys that clean to
      customer 1002's, verifies customer 1002. */
  lemma AnswerVerifiesCustomer1002(phone: string, customerId: string, answer: string)
    requires Clean(phone) == "123" && Clean(customerId) == "1002"
    requires Clean(answer) == "white"
    ensures Verify(Source, Some(phone), Some(customerId), Some(answer)) == Verified(Customers[1])
  {
    CleanKeepsCleaned("white");
    Customer1002Found(phone, customerId);
    AnswerDecides(Source, phone, customerId, Some(answer), Customers[1]);
  }

  /** Spaced, hyphenated and upper-case inputs verify customer 1002. */
  lemma NoisyInputsVerify()
    ensures Verify(Source, Some("1 2 3"), Some("10-02"), Some("WHITE ")) == Verified(Customers[1])
  {
    SpacedPhoneCleans();
    HyphenatedIdCleans();
    NoisyAnswerCleans();
    AnswerVerifiesCustomer1002("1 2 3", "10-02", "WHITE ");
  }
}
